=== FILE: README.md ===
# A verified model of the HTTP connection of ThreadPool_Server

The server handles each connection with one `http_conn` object. The object
receives bytes into a fixed read buffer of 2048 bytes. A line scanner
(`parse_line`) finds the end of each line and overwrites the `\r\n` with NULs.
A master state machine (`process_read`) then hands each line to one of three
handlers, by state:

- the request line (`parse_request_line`);
- the headers (`parse_headers`);
- the body (`parse_content`).

A complete request is resolved to a file under the document root
(`do_request`). `process_write` then builds the response in a 1024-byte
write buffer (`add_response` and the `add_*` helpers). It describes what to
send with one or two `iovec` entries. `process` ties the two sides together,
and `init` resets the connection for the next request.

The model is functional. A connection is an immutable `Conn` record that
holds both buffers, the cursors (`readIdx`, `checkedIdx`, `startLine`,
`writeIdx`), the parse state and the parsed fields. Pointers into the read
buffer (`m_url`, `m_version`, `m_host`) are offsets (`Ptr`). C strings are
read from a buffer up to the first NUL (`CStr`). Every handler maps a
connection and the offset of its line to an outcome (`Step`). The scanner
also exists as an imperative method over the buffer, `Scanner.ParseLine`,
which is proved to compute the functional scan.

Where the code departs from what it evidently intends, the operations take
a `Variant` argument: `AsWritten` follows the code, `Corrected` the evident
intent (see "## Findings"). `ProcessRead` is the corrected loop and
`ProcessReadAsWritten` the loop as written.

Modules, one file each:

- `clib.dfy` (`CLib`): the libc pieces the parser relies on, modelled from
  their C semantics. These are `strpbrk`, `strspn`, `strchr`,
  `strcasecmp`, `atol`, `%d`, and NUL-terminated strings in a buffer.
- `conn.dfy` (`Connection`): the connection record, its invariants, `init`,
  and the arrival of bytes (`Deliver`, `read`).
- `scanner.dfy` (`Scanner`): `parse_line`.
- `request.dfy` (`Request`): the three handlers.
- `master.dfy` (`Master`): `do_request` and `process_read`.
- `response.dfy` (`Response`): `add_response`, the `add_*` helpers,
  `process_write` and `process`.

All paths below are in `http_conn.cpp`.

Three behaviours of the code that a reader might not expect, and that the
model follows:

- A malformed line (LINE_BAD) ends the loop with NO_REQUEST (lines 233 and
  264), not with BAD_REQUEST. This is the first finding below.
- The body is complete once `m_read_idx >= m_content_length +
  m_checked_idx` (line 221). It is counted from `m_checked_idx`, not from
  where the body starts, and the scanner can move `m_checked_idx` through
  an incomplete body. This is the fourth finding below.
- `init` clears the whole read buffer (line 95), so bytes already received
  for a following, pipelined request are lost. `Connection.Init` states
  this.

## Model

| member | source | states |
|---|---|---|
| CLib.BlankFrom | http_conn.cpp:159 | `strpbrk(s, " \t")`: the first blank at or after the start, or the end of the string when there is none; nothing before it is a blank |
| CLib.NonBlankFrom | http_conn.cpp:170 | `strspn(s, " \t")`: the end of the run of blanks, i.e. the first non-blank at or after the start, or the end of the string |
| CLib.CharFrom | http_conn.cpp:180 | `strchr(s, '/')`: the first `/` in the string, or its end; no `/` before it |
| CLib.CaseEqAtOccurs | http_conn.cpp:165 | comparing in place with `strcasecmp` is a case-insensitive comparison of the piece of the line that occurs there |
| CLib.Atol | http_conn.cpp:206 | `atol`: a string that is all white space reads as 0, a negative value needs a `-` after the white space, and a non-zero value needs a digit |
| CLib.AtolPrefix | http_conn.cpp:206 | `atol` stops at the first non-digit: what `%d` prints, followed by anything not starting with a digit, reads back as the number |
| CLib.AtolFormatInt | http_conn.cpp:206 | `atol` reads back what `%d` prints, for every integer: the Content-Length a response announces is read as that number |
| CLib.FormatInt64Length | http_conn.cpp:320 | `%d` of any 64-bit value is at most 20 characters long |
| Connection.Init | http_conn.cpp:83-98 | after a reset, every cursor is 0, the state is REQUESTLINE, keep-alive is off, the body length is 0, the three pointers are null, both buffers and the path are empty C strings, and the invariant holds; file status, mapping and `iovec`s are kept |
| Connection.InitForgetsRequest | http_conn.cpp:83-98 | the reset forgets the request: two connections that differ only in request state reset to the same connection, and resetting is idempotent |
| Connection.Deliver | http_conn.cpp:106-114 | received bytes are appended at `readIdx`, which advances by their number; the bytes before are unchanged; the read invariant is preserved |
| Connection.DeliverTwice | http_conn.cpp:105-115 | receiving bytes in two parts is receiving them at once |
| Connection.Read | http_conn.cpp:101-117 | `read()` succeeds exactly when the buffer was not full, the pending bytes fit (an exact fill included), and the last `recv` would block; on success every pending byte is stored, otherwise as many as fit |
| Scanner.ScanLine | http_conn.cpp:120-146 | the scan stays within `[checkedIdx, readIdx]`; a complete line ends just past two NULs and changes only those two bytes; an open or bad line leaves the buffer alone, and no terminator lies before where the scan stopped; an open line stops at `readIdx` or on a final `\r` |
| Scanner.ScanOpenWhenNoTerminator | http_conn.cpp:124-145 | with no `\r` or `\n` left to read, the line is OPEN with `checkedIdx == readIdx` and nothing written, and conversely |
| Scanner.ScanCarriageReturn | http_conn.cpp:126-133 | a `\r\n` gives OK, with both bytes NUL and the scan past the `\n`; a `\r` that is the last byte received gives OPEN, stopped on it |
| Scanner.ScanMalformed | http_conn.cpp:134-142 | a `\r` followed by anything but `\n` is BAD; a `\n` is BAD unless it is past offset 1 and follows a `\r`, and OK in that case |
| Scanner.ScanDecidedExtends | http_conn.cpp:124-143 | bytes received later do not change an OK or BAD verdict, nor its NUL writes |
| Scanner.ScanOpenResumes | http_conn.cpp:124-145 | after an OPEN scan and more bytes, scanning from where it stopped gives what scanning from where it began gives |
| Scanner.ParseLine | http_conn.cpp:120-146 | the loop as written (index by index, with its early returns) computes exactly `ScanLine`: same status, same `checkedIdx`, same buffer |
| Request.ParseRequestLine | http_conn.cpp:158-186 | the outcome is NO_REQUEST or BAD_REQUEST; NO_REQUEST exactly when the state moves to HEADER, and then URL and version are set; only the buffer, the two pointers and the state change |
| Request.SplitPoints | http_conn.cpp:159-175 | on a line `method blanks target blanks version`, the `strpbrk` and `strspn` steps land on the boundaries of the five pieces |
| Request.RequestLineVerdict | http_conn.cpp:158-186 | both directions: a line of that form is accepted exactly when the method is `GET`, the version `HTTP/1.1` (any case) and the target acceptable; the version pointer then designates the version, and the URL pointer a `/`-led suffix of the target (the whole target for an absolute path) |
| Request.TargetVerdict | http_conn.cpp:178-183 | the target check accepts exactly an absolute path or `http://` (any case) followed by something containing `/`; an absolute path is kept whole |
| Request.AbsoluteTarget | http_conn.cpp:178-183 | `http://` plus an authority without `/` plus a path: the URL pointer lands on the path |
| Request.RequestLineAbsolute | http_conn.cpp:158-186 | a whole request line in absolute form is accepted, and the URL designates the path after the authority |
| Request.RequestLineTooShort | http_conn.cpp:159-173 | a line without a blank, or whose target is not followed by a blank, is BAD_REQUEST |
| Request.RequestLineEdits | http_conn.cpp:162-174 | the request-line parser writes nothing but NULs, and only inside the line |
| Request.ParseHeaders | http_conn.cpp:189-216 | outcomes are NO_REQUEST, GET_REQUEST, or BAD_REQUEST (corrected only); GET_REQUEST only for the empty line with no body announced; CONTENT only after the empty line with a non-zero length; only state, keep-alive, body length and host change; corrected, the length never becomes negative |
| Request.EndOfHeaders | http_conn.cpp:190-196 | the empty line gives GET_REQUEST exactly when the body length is 0, and otherwise moves to CONTENT with NO_REQUEST |
| Request.ConnectionHeader | http_conn.cpp:197-202 | `Connection:` sets keep-alive exactly when the value is `keep-alive` (any case), and never clears it |
| Request.ContentLengthHeader | http_conn.cpp:203-207 | `Content-Length:` followed by a number printed with `%d` sets the body length to that number; corrected, a negative one is BAD_REQUEST with nothing changed |
| Request.HostHeader | http_conn.cpp:208-212 | `Host:` points the host at the value, after the blanks, and changes nothing else |
| Request.OtherHeader | http_conn.cpp:213-215 | any other non-empty line is NO_REQUEST with nothing changed |
| Request.ParseContent | http_conn.cpp:220-226 | GET_REQUEST exactly when `readIdx >= contentLength + checkedIdx`, NO_REQUEST exactly otherwise; at most the byte at `text + contentLength` changes |
| Request.RequestLineDeliver | http_conn.cpp:158-186 | a request line already terminated below `readIdx` gets the same verdict and the same edits whatever arrives after it |
| Request.HeadersDeliver | http_conn.cpp:189-216 | the same for a header line |
| Master.RealPath | http_conn.cpp:269-271 | the path is the document root followed by the URL, cut to fit `FILENAME_LEN - 1` characters; a short URL is kept whole, and a long one gives a path of exactly 199 characters |
| Master.DoRequest | http_conn.cpp:268-282 | the checks run in order: NO_RESOURCE exactly when the path does not exist, FORBIDDEN exactly when it exists but others may not read it, BAD_REQUEST exactly for a readable directory, FILE_REQUEST exactly otherwise (and then the file is mapped); the status is recorded; the read side is untouched |
| Master.ReadLoop | http_conn.cpp:229-265 | the read invariant is kept; no byte is received and the write side is untouched; the outcome is never GET_REQUEST or INTERNAL_ERROR; FILE_REQUEST comes with the mapped file's status from `fs`; as written, BAD_REQUEST comes only from the request line or a directory; corrected, the body length stays non-negative and positive in the body |
| Master.Handle | http_conn.cpp:233-262 | one turn of the loop keeps the same properties as the whole loop |
| Master.ProcessRead | http_conn.cpp:229-265 | `process_read` (corrected) never returns GET_REQUEST or INTERNAL_ERROR, and moves neither `readIdx` nor `writeIdx` |
| Master.ProcessReadAsWritten | http_conn.cpp:229-265 | the same, for the loop as written |
| Master.OpenLineWaits | http_conn.cpp:233-264 | outside the body, with no terminator left to read, the loop returns NO_REQUEST with everything scanned and nothing else changed |
| Master.BadLineStops | http_conn.cpp:233-264 | a malformed line stops the loop on the offending byte: NO_REQUEST as written, BAD_REQUEST corrected |
| Master.BadLineSticks | http_conn.cpp:233-264 | as written, after a malformed line every later call returns NO_REQUEST again, whatever arrives; corrected, it is BAD_REQUEST at once |
| Master.ResumeLoop | http_conn.cpp:229-265 | corrected: a connection the loop left with NO_REQUEST behaves, once more bytes arrive, as the connection it started from would with those bytes |
| Master.TakeLine | http_conn.cpp:233-252 | handling a complete line keeps the invariant, advances `checkedIdx` and moves `startLine` to it; when the handler lets the loop go on, the loop from the new connection is the loop from the old one |
| Master.TakeLineDeliver | http_conn.cpp:233-252 | taking a complete line commutes with bytes that arrive later |
| Master.Fragmentation | http_conn.cpp:229-265 | corrected: a request that arrives in two parts gives, after the second part, the outcome and connection of one call on both parts |
| Master.CorrectedStaysInBody | http_conn.cpp:253-258 | corrected, once the loop is in the body it stays there: the state the loop leaves is CONTENT |
| Master.HeadersAgree | http_conn.cpp:203-207 | the two readings of `parse_headers` give the same outcome and connection on every line the corrected one does not reject |
| Master.VariantsAgree | http_conn.cpp:229-265 | outside the body, the loop as written and the corrected loop give the same outcome and connection whenever the corrected one neither answers BAD_REQUEST nor ends in the body |
| Master.FragmentationAsWritten | http_conn.cpp:229-265 | as written, a request the corrected loop neither rejects nor takes into the body (a GET without a body) gives after its second part the outcome and connection of one call on both parts, and the first call agrees with the corrected one |
| Master.BodyWaits | http_conn.cpp:253-258 | an incomplete body changes nothing, and the loop goes on with the line status OPEN |
| Master.BodyCompletes | http_conn.cpp:253-256 | a complete body ends the loop with an outcome of `do_request` |
| Master.BodyLineTaken | http_conn.cpp:233-235 | as written, a line found in an incomplete body is taken as a line: `startLine` and `checkedIdx` move past it |
| Master.BodyOpen | http_conn.cpp:233-264 | as written, an open line in an incomplete body ends the loop with NO_REQUEST |
| Master.BodyFirstPart | http_conn.cpp:233-258 | as written, for body `a\r\n` of an announced 4: the scanner takes `a` as a line, and the body is counted again after it |
| Master.BodySplitStalls | http_conn.cpp:233-258 | as written, a 4-byte body `a\r\nb` received as `a\r\n` then `b` still waits after its last byte |
| Master.BodySplitWaits | http_conn.cpp:221-257 | as written, a body without line terminators that arrives in two parts, the first non-empty, is never completed: after the first part `checkedIdx` is at `readIdx`, and a second part shorter than the whole body leaves the loop at NO_REQUEST, even one that supplies exactly the missing bytes |
| Master.BodyUnscanned | http_conn.cpp:221-257 | as written, an incomplete body without line terminators ends the loop with NO_REQUEST, `startLine` at the old `checkedIdx` and `checkedIdx` at `readIdx` |
| Master.BodyAtOnce | http_conn.cpp:233-258 | the same body received at once completes, as written; corrected, it completes when split too |
| Master.NegativeLengthWritesBefore | http_conn.cpp:220-226 | as written, a negative body length makes the body complete at once, and the body handler writes its NUL before the line it was handed |
| Master.BodyEndWrite | http_conn.cpp:220-226 | corrected, the body handler's NUL lands right after the body, past `checkedIdx` and at most at `readIdx` |
| Response.AddResponse | http_conn.cpp:293-304 | succeeds exactly when `writeIdx` plus the length of `s` is below `WRITE_BUFFER_SIZE - 1`; on success the queued bytes are the old ones followed by `s`, with a NUL after them; on failure `writeIdx` and the queued bytes are unchanged; nothing else changes |
| Response.AddResponseTwice | http_conn.cpp:293-304 | two appends that fit queue both texts in order |
| Response.StatusCodeReadsBack | http_conn.cpp:307-309 | the status line starts with `HTTP/1.1 `, and `atol` of the rest gives back the status code, whatever the title |
| Response.AddStatusLine | http_conn.cpp:307-309 | `add_status_line` succeeds exactly when the status line fits below `WRITE_BUFFER_SIZE - 1`; then it is queued after the old bytes, otherwise the queued bytes are unchanged; only the write side changes |
| Response.AddContent | http_conn.cpp:334-336 | `add_content` succeeds exactly when the body fits below `WRITE_BUFFER_SIZE - 1`; then the body is queued as it is, otherwise the queued bytes are unchanged; only the write side changes |
| Response.AddHeaders | http_conn.cpp:312-316 | `add_headers` touches only the write buffer and `writeIdx` |
| Response.AddHeadersChecked | http_conn.cpp:312-316 | `add_headers` as intended: the same appends, and the value is true exactly when the whole header block fits below `WRITE_BUFFER_SIZE - 1` |
| Response.HeadersValueMissing | http_conn.cpp:312-316 | as written, `add_headers` yields no value, where the intended one reports whether the block fit; the bytes queued are the same |
| Response.HeadersQueued | http_conn.cpp:312-331 | when it fits, `add_headers` queues `Content-Length: n\r\n`, `Connection: keep-alive\r\n` or `Connection: close\r\n` and a blank line, in that order |
| Response.Int32 | http_conn.cpp:312 | the `int` parameter of `add_headers`: in 32-bit range, congruent to its argument modulo 2^32, and equal to it when it is in range |
| Response.Respond | http_conn.cpp:341-367 | status line, headers and body: on success the response goes out from the write buffer alone (`iovec` count 1, its length `writeIdx`); only the write side changes |
| Response.SendFile | http_conn.cpp:369-378 | status line and headers, then two `iovec`s: the write buffer up to `writeIdx` and the file mapping of `size` bytes; always succeeds |
| Response.ProcessWrite | http_conn.cpp:339-394 | NO_REQUEST and GET_REQUEST get no response; on success the first `iovec` covers the write buffer up to `writeIdx`; there are two `iovec`s exactly for a non-empty file, the second covering all of it; a failure leaves the `iovec`s and their count as they were; only the write side changes |
| Response.RespondQueues | http_conn.cpp:341-367 | a page that fits is queued whole: status line, headers announcing the body's length, body |
| Response.SendFileQueues | http_conn.cpp:369-378 | status line and headers that fit are queued whole |
| Response.PageFits | http_conn.cpp:341-367 | a page with a 3-digit status and short title and body fits well inside the write buffer |
| Response.ErrorResponse | http_conn.cpp:341-367 | each of the four error outcomes queues its status line, headers and canned body, and is sent from the write buffer alone |
| Response.FileResponse | http_conn.cpp:369-378 | a non-empty file gets `HTTP/1.1 200 OK` and its headers queued, and is sent whole after them |
| Response.EmptyFileResponse | http_conn.cpp:379-388 | as written, an empty file makes `process_write` fail with the small page queued and the `iovec`s and their count untouched; corrected, the page is queued and sent from the write buffer |
| Response.LengthReadsBack | http_conn.cpp:372 | corrected, a client reading the Content-Length header back gets the file's size |
| Response.LengthWraps | http_conn.cpp:372 | as written, a file of 2^31 to 2^32 - 1 bytes is announced with the negative length `size - 2^32` |
| Response.Process | http_conn.cpp:398-408 | `process` leaves `readIdx` unchanged; waiting for input queues nothing; a reply starts from the write buffer |
| Response.ProcessAnswers | http_conn.cpp:398-408 | corrected, with an empty write buffer and file sizes within `off_t`: `process` waits for input exactly on NO_REQUEST, never closes, sends the error page for an error, and sends a non-empty file whole as the second `iovec` |
| Response.EmptyFileCloses | http_conn.cpp:398-408 | as written, a request that resolves to an empty file closes the connection |

## Left out

- The constants `READ_BUFFER_SIZE` (2048), `WRITE_BUFFER_SIZE` (1024) and
  `FILENAME_LEN` (200) come from `http_conn.h`, which is not part of this
  model. The model takes these customary values. The proofs depend on them
  only through small facts, such as a status line and headers fitting in
  the write buffer.
- `locker.h`, and the epoll and `fcntl` plumbing (`setnonblocking`, `addfd`,
  `removefd`, `modfd`, lines 25-54). They serve only concurrency and
  readiness registration. `Response.Process` returns which readiness the
  connection waits for (`Outcome`) instead of registering it.
- `close_conn` and `init(int, sockaddr_in)` (lines 56-80): they handle the
  shared user count, the epoll descriptor and socket options.
- The `recv` loop of `read()` is modelled as an abstract transition,
  `Connection.Read`. The bytes the socket would give are a parameter, and
  so is the way the loop ends. An `errno` of EAGAIN is `WouldBlock`.
- `write()` (lines 411-445) is left out. The `writev` loop and its
  partial-write bookkeeping depend on the socket.
- `stat`, `open`, `mmap`, `munmap` and `unmap` (lines 272-290) are left out.
  The file system is the map `fs` from paths to file status, and a mapped
  file is a flag. Reading the file's bytes is not modelled.
- `printf` logging (lines 214 and 236) is left out.
- `vsnprintf`: each format is modelled as the string it produces. `%d` is
  `CLib.FormatInt`.
- `Response.AddHeaders` returns only the connection. The C++ function is
  declared to return `bool` but flows off its end, which is undefined
  behaviour in C++ whether or not a caller uses the value (fifth finding
  below). The model gives it its evident effect, the three appends.
- `Request.ParseContent`: the sum `m_content_length + m_checked_idx` on
  line 221 is computed in unbounded integers. In the code it is a 32-bit
  `int` sum, and a length near `INT_MAX` (`Content-Length: 2147483647`)
  overflows it, which is undefined behaviour; on a wrapping machine the
  body is complete at once and line 222 writes about 2 GiB past the line.
  Writes outside the read buffer are also undefined in C++ and are not
  modelled. Such writes come from a negative length that reaches before
  the buffer, from a length that reaches past it, or from a body that ends
  exactly at the buffer's end.
- The `default` branch of `process_read` (line 261, `INTERNAL_ERROR`) is
  unreachable, because the state has only three values; the model has no
  such branch.
- `m_method` is not a field of `Conn`. `init` sets it to GET (line 86), and
  the request-line parser accepts only `GET` and sets it to GET again
  (lines 165-168), so it is always GET and nothing reads it.
- `atol` is unbounded in the model. An overflowing `atol` has no defined
  value, and conversion to the `int` field is not modelled.
- Response.ProcessAnswers: it assumes an empty write buffer and file sizes
  below 2^63. Those are the conditions under which the code's buffers and
  `off_t` make every response fit.

## Findings

| source | as written | input that shows it | evidently intended | confidence | as-written member | corrected member |
|---|---|---|---|---|---|---|
| http_conn.cpp:233-264 | a malformed line (LINE_BAD) only ends the loop, which returns NO_REQUEST; the scanner stops on the bad byte and finds it again on every later call | request line `GET / HTTP/1.1\rX` | answer BAD_REQUEST | high; not executed | Master.BadLineSticks | Master.BadLineStops |
| http_conn.cpp:379-388 | the zero-size FILE_REQUEST case has no `break` and falls into `default: return false`, so the connection is closed after the small page was queued | a request for an existing readable empty file | send the small page | high; not executed | Response.EmptyFileCloses | Response.EmptyFileResponse |
| http_conn.cpp:206, 222 | `atol` accepts a negative Content-Length; the body is then complete at once, and `text[m_content_length] = '\0'` writes before the line | header `Content-Length: -5` | reject a negative length | high; not executed | Master.NegativeLengthWritesBefore | Request.ContentLengthHeader |
| http_conn.cpp:221, 233, 257 | after an incomplete body the loop goes on with LINE_OPEN and scans the body; the scanner moves `m_checked_idx` to `m_read_idx`, and the body is then counted again from there, so a body split across reads whose first part holds no `\r` or `\n` never completes | 4-byte body `abcd` received as `ab`, then `cd` | wait for the rest of the body without scanning it | high; not executed | Master.BodySplitWaits | Master.Fragmentation |
| http_conn.cpp:312-316 | `add_headers` is declared `bool` but has no `return`; flowing off its end is undefined behaviour in C++, and every error and file response (lines 343-382) calls it | any error response, e.g. a request for a missing file | return whether the three appends succeeded | high; not executed | Response.HeadersValueMissing | Response.AddHeadersChecked |
| http_conn.cpp:312, 372 | `add_headers(int)` receives the `off_t` file size, truncated to `int` | a file of 2^31 bytes is announced as `Content-Length: -2147483648` | announce the full size | medium; not executed | Response.LengthWraps | Response.LengthReadsBack |

=== FILE: clib.dfy ===
/** The C library string routines the connection code relies on, stated over
    `seq<char>`: NUL-terminated views into a buffer (`CStr`), `strpbrk`,
    `strspn`, `strchr`, `strcasecmp`, `strncasecmp`, `atol`, and the `%d`
    conversion of `printf`.  Character classification is the "C" locale. */
module CLib {

  const NUL: char := '\0'
  const CR: char := '\r'
  const LF: char := '\n'

  datatype Option<T> = None | Some(value: T)

  /** A `char *` into a buffer: the null pointer, or an offset. */
  datatype Ptr = Null | At(off: nat)

  /** The separator set `" \t"` that the parser hands to `strpbrk` and `strspn`. */
  predicate IsBlank(ch: char) {
    ch == ' ' || ch == '\t'
  }

  /** `isspace` in the "C" locale. */
  predicate IsSpace(ch: char) {
    ch == ' ' || ch == '\t' || ch == '\n' || ch == '\U{B}' || ch == '\U{C}' || ch == '\r'
  }

  predicate IsDigit(ch: char) {
    '0' <= ch <= '9'
  }

  /** `tolower` in the "C" locale: only `A`..`Z` change. */
  function ToLower(ch: char): (r: char)
    ensures 'A' <= ch <= 'Z' ==> 'a' <= r <= 'z' && r as int == ch as int + 32
    ensures !('A' <= ch <= 'Z') ==> r == ch
  {
    if 'A' <= ch <= 'Z' then (ch as int + 32) as char else ch
  }

  /** `strcasecmp(s, t) == 0` for NUL-free `s` and `t`. */
  predicate CaseEq(s: string, t: string) {
    |s| == |t| && forall i :: 0 <= i < |s| ==> ToLower(s[i]) == ToLower(t[i])
  }

  /** `strncasecmp(s, lit, |lit|) == 0` for NUL-free `s` and `lit`: a string
      shorter than `lit` differs from it at its terminating NUL. */
  predicate CasePrefix(s: string, lit: string) {
    |s| >= |lit| && CaseEq(s[..|lit|], lit)
  }

  // ---------------------------------------------------------------------------
  // NUL-terminated views into a buffer

  /** Number of non-NUL characters from `p` up to the first NUL or the end of `b`. */
  function CStrLen(b: seq<char>, p: nat): (n: nat)
    requires p <= |b|
    ensures p + n <= |b|
    ensures forall k :: p <= k < p + n ==> b[k] != NUL
    ensures p + n < |b| ==> b[p + n] == NUL
    decreases |b| - p
  {
    if p == |b| || b[p] == NUL then 0 else 1 + CStrLen(b, p + 1)
  }

  /** The C string that starts at offset `p` of buffer `b`. */
  function CStr(b: seq<char>, p: nat): (s: string)
    ensures NUL !in s
    ensures p <= |b| ==> p + |s| <= |b|
    ensures p >= |b| ==> s == []
    ensures forall i :: 0 <= i < |s| ==> s[i] == b[p + i]
    ensures p + |s| < |b| ==> b[p + |s|] == NUL
  {
    if p >= |b| then [] else b[p .. p + CStrLen(b, p)]
  }

  /** The five properties above pin `CStr` down: any string with them is it. */
  lemma CStrUnique(b: seq<char>, p: nat, s: string)
    requires p <= |b| && p + |s| <= |b|
    requires NUL !in s
    requires forall i :: 0 <= i < |s| ==> s[i] == b[p + i]
    requires p + |s| < |b| ==> b[p + |s|] == NUL
    ensures CStr(b, p) == s
  {
    var r := CStr(b, p);
    if |r| < |s| {
      ElementIn(s, |r|);
      assert false;
    } else if |r| > |s| {
      ElementIn(r, |s|);
      assert false;
    }
  }

  lemma ElementIn<T>(s: seq<T>, i: nat)
    ensures i < |s| ==> s[i] in s
  {
  }

  /** Starting `i` characters into a C string gives its suffix. */
  lemma CStrSuffix(b: seq<char>, p: nat, i: nat)
    requires p <= |b| && i <= |CStr(b, p)|
    ensures CStr(b, p + i) == CStr(b, p)[i..]
  {
    CStrUnique(b, p + i, CStr(b, p)[i..]);
  }

  /** A C string depends only on the bytes up to its terminating NUL. */
  lemma CStrAgree(b: seq<char>, b': seq<char>, p: nat, z: nat)
    requires |b| == |b'| && p <= z < |b|
    requires b[z] == NUL
    requires forall k :: p <= k <= z ==> b[k] == b'[k]
    ensures CStr(b, p) == CStr(b', p)
    ensures p + |CStr(b, p)| <= z
  {
    CStrUnique(b', p, CStr(b, p));
  }

  // ---------------------------------------------------------------------------
  // strpbrk, strspn, strchr, strcasecmp on a C string, by offset

  /** `x` occurs in `s` at offset `off`. */
  predicate Occurs(s: string, off: nat, x: string) {
    off + |x| <= |s| && forall k :: 0 <= k < |x| ==> s[off + k] == x[k]
  }

  /** `strpbrk(s + i, " \t")`: the offset of the first blank at or after
      `i`, or `|s|` (the terminating NUL) when there is none. */
  function BlankFrom(s: string, i: nat): (r: nat)
    requires i <= |s|
    ensures i <= r <= |s|
    ensures r < |s| ==> IsBlank(s[r])
    ensures (forall k :: i <= k < r ==> !IsBlank(s[k]))
    decreases |s| - i
  {
    if i == |s| || IsBlank(s[i]) then i else BlankFrom(s, i + 1)
  }

  /** `i + strspn(s + i, " \t")`: the offset of the first non-blank at or
      after `i`, or `|s|`. */
  function NonBlankFrom(s: string, i: nat): (r: nat)
    requires i <= |s|
    ensures i <= r <= |s|
    ensures r < |s| ==> !IsBlank(s[r])
    ensures (forall k :: i <= k < r ==> IsBlank(s[k]))
    decreases |s| - i
  {
    if i < |s| && IsBlank(s[i]) then NonBlankFrom(s, i + 1) else i
  }

  /** `strchr(s + i, ch)` on a C string that ends at `to`: the offset of the
      first `ch` in `[i, to)`, or `to`. */
  function CharFrom(s: string, i: nat, to: nat, ch: char): (r: nat)
    requires i <= to <= |s|
    ensures i <= r <= to
    ensures r < to ==> s[r] == ch
    ensures (forall k :: i <= k < r ==> s[k] != ch)
    decreases (to as int) - (i as int)
  {
    if i == to || s[i] == ch then i else CharFrom(s, i + 1, to, ch)
  }

  /** `strcasecmp` of the C string `s[lo..hi)` with `lit` is 0. */
  predicate CaseEqAt(s: string, lo: nat, hi: nat, lit: string)
    requires lo <= hi <= |s|
  {
    hi - lo == |lit| && forall k :: 0 <= k < |lit| ==> ToLower(s[lo + k]) == ToLower(lit[k])
  }

  /** The first blank is where the stretch without blanks ends. */
  lemma BlankFromIs(s: string, i: nat, p: nat)
    requires i <= p <= |s| && (p < |s| ==> IsBlank(s[p]))
    requires forall k :: i <= k < p ==> !IsBlank(s[k])
    ensures BlankFrom(s, i) == p
  {
  }

  /** The first non-blank is where the run of blanks ends. */
  lemma NonBlankFromIs(s: string, i: nat, p: nat)
    requires i <= p <= |s| && (p < |s| ==> !IsBlank(s[p]))
    requires forall k :: i <= k < p ==> IsBlank(s[k])
    ensures NonBlankFrom(s, i) == p
  {
  }

  /** The first `ch` is where the stretch without it ends. */
  lemma CharFromIs(s: string, i: nat, to: nat, ch: char, p: nat)
    requires i <= p <= to <= |s| && (p < to ==> s[p] == ch)
    requires forall k :: i <= k < p ==> s[k] != ch
    ensures CharFrom(s, i, to, ch) == p
  {
  }

  /** Comparing in place is comparing the piece that occurs there. */
  lemma CaseEqAtOccurs(s: string, lo: nat, hi: nat, x: string, lit: string)
    requires Occurs(s, lo, x) && hi == lo + |x|
    ensures CaseEqAt(s, lo, hi, lit) <==> CaseEq(x, lit)
  {
  }

  // ---------------------------------------------------------------------------
  // atol and %d

  function DigitValue(ch: char): (d: nat)
    requires IsDigit(ch)
    ensures d < 10
  {
    ch as int - '0' as int
  }

  function DigitChar(d: nat): (ch: char)
    requires d < 10
    ensures IsDigit(ch) && DigitValue(ch) == d
  {
    ('0' as int + d) as char
  }

  predicate AllDigits(s: string) {
    forall i :: 0 <= i < |s| ==> IsDigit(s[i])
  }

  /** `s` with its leading `isspace` characters removed. */
  function SkipSpace(s: string): (t: string)
    ensures |t| <= |s| && t == s[|s| - |t|..]
    ensures |t| > 0 ==> !IsSpace(t[0])
  {
    if |s| > 0 && IsSpace(s[0]) then SkipSpace(s[1..]) else s
  }

  /** Folds the leading decimal digits of `s` into `acc`, left to right, the
      way `atol` accumulates. */
  function Accumulate(s: string, acc: nat): nat
  {
    if |s| > 0 && IsDigit(s[0]) then Accumulate(s[1..], acc * 10 + DigitValue(s[0])) else acc
  }

  /** `atol(s)`: optional leading white space, an optional sign, then decimal
      digits; anything after the digits is ignored, and no digits gives 0.
      The result is unbounded: an overflowing `atol` has no defined value. */
  function Atol(s: string): (r: int)
    ensures SkipSpace(s) == [] ==> r == 0
    ensures r < 0 ==> SkipSpace(s)[0] == '-'
    ensures r != 0 ==> exists i :: 0 <= i < |s| && IsDigit(s[i])
  {
    var t := SkipSpace(s);
    if |t| > 0 && t[0] == '-' then -(Accumulate(t[1..], 0) as int)
    else if |t| > 0 && t[0] == '+' then Accumulate(t[1..], 0)
    else Accumulate(t, 0)
  }

  /** The decimal digits of `n`, most significant first, without leading zeros. */
  function FormatNat(n: nat): (s: string)
    ensures |s| > 0 && AllDigits(s)
    ensures n > 0 ==> s[0] != '0'
  {
    if n < 10 then [DigitChar(n)] else FormatNat(n / 10) + [DigitChar(n % 10)]
  }

  /** `printf("%d", n)`. */
  function FormatInt(n: int): (s: string)
    ensures |s| > 0 && NUL !in s
    ensures n >= 0 <==> IsDigit(s[0])
  {
    if n < 0 then "-" + FormatNat(-n) else FormatNat(n)
  }

  /** Accumulating a run of digits and then what follows is accumulating the
      run first. */
  lemma {:induction false} AccumulateAppend(x: string, y: string, acc: nat)
    requires AllDigits(x)
    ensures Accumulate(x + y, acc) == Accumulate(y, Accumulate(x, acc))
    decreases |x|
  {
    if |x| > 0 {
      assert (x + y)[1..] == x[1..] + y;
      AccumulateAppend(x[1..], y, acc * 10 + DigitValue(x[0]));
    } else {
      assert x + y == y;
    }
  }

  /** Reading back the digits `%d` prints for a natural number gives it back. */
  lemma {:induction false} AccumulateFormatNat(n: nat)
    ensures Accumulate(FormatNat(n), 0) == n
    decreases n
  {
    if n >= 10 {
      AccumulateFormatNat(n / 10);
      AccumulateAppend(FormatNat(n / 10), [DigitChar(n % 10)], 0);
    }
  }

  /** `atol` stops at the first non-digit: a `%d` rendering followed by
      anything that does not start with a digit reads back as the number. */
  lemma AtolPrefix(n: int, rest: string)
    requires |rest| == 0 || !IsDigit(rest[0])
    ensures Atol(FormatInt(n) + rest) == n
  {
    var m: nat := if n < 0 then -n else n;
    var t := FormatNat(m) + rest;
    AccumulateFormatNat(m);
    AccumulateAppend(FormatNat(m), rest, 0);
    assert Accumulate(t, 0) == m;
    var s := FormatInt(n) + rest;
    assert SkipSpace(s) == s by { assert !IsSpace(s[0]); }
    if n < 0 {
      assert s == "-" + t;
      assert s[1..] == t;
    } else {
      assert s == t && IsDigit(s[0]);
    }
  }

  /** `atol` inverts `%d`: the decimal rendering of any integer reads back as it. */
  lemma AtolFormatInt(n: int)
    ensures Atol(FormatInt(n)) == n
  {
    var s := FormatInt(n);
    assert !IsSpace(s[0]);
    assert SkipSpace(s) == s;
    AccumulateFormatNat(if n < 0 then -n else n);
    if n < 0 {
      assert s[1..] == FormatNat(-n);
    }
  }

  function Pow10(k: nat): (r: nat)
    ensures r >= 1
  {
    if k == 0 then 1 else 10 * Pow10(k - 1)
  }

  lemma {:induction false} Pow10Add(a: nat, b: nat)
    ensures Pow10(a + b) == Pow10(a) * Pow10(b)
    decreases a
  {
    if a > 0 {
      Pow10Add(a - 1, b);
    }
  }

  /** Every 64-bit integer prints in at most 20 characters. */
  lemma FormatInt64Length(n: int)
    requires -0x8000_0000_0000_0000 <= n <= 0x7FFF_FFFF_FFFF_FFFF
    ensures |FormatInt(n)| <= 20
  {
    assert Pow10(3) == 1000;
    Pow10Add(3, 3);
    Pow10Add(6, 6);
    Pow10Add(12, 6);
    Pow10Add(18, 1);
    FormatNatLength(if n < 0 then -n else n, 19);
  }

  /** A number below `10^k` prints in at most `k` digits. */
  lemma {:induction false} FormatNatLength(n: nat, k: nat)
    requires 1 <= k && n < Pow10(k)
    ensures |FormatNat(n)| <= k
    decreases k
  {
    if n >= 10 {
      assert k >= 2;
      FormatNatLength(n / 10, k - 1);
    }
  }
}

=== FILE: conn.dfy ===
/** The state of one HTTP connection (class `http_conn`): the fixed-capacity
    read buffer with its three cursors, the request-parsing state, the parsed
    request fields (pointers into the read buffer), and the response side
    (write buffer, resolved file, scatter/gather descriptors). */
module Connection {
  import opened CLib

  /** Capacities declared in `http_conn.h`. */
  const READ_BUFFER_SIZE: nat := 2048
  const WRITE_BUFFER_SIZE: nat := 1024
  const FILENAME_LEN: nat := 200

  /** Master state machine: which part of the request the next line belongs to. */
  datatype CheckState = RequestLine | Header | Content

  /** Line scanner outcome: a complete line, a malformed line, or not enough data yet. */
  datatype LineStatus = LineOk | LineBad | LineOpen

  /** Outcome of parsing and resolving a request. */
  datatype HttpCode =
    | NoRequest | GetRequest | BadRequest | NoResource
    | ForbiddenRequest | FileRequest | InternalError

  /** A handler's outcome and the connection it leaves. */
  datatype Step = Step(code: HttpCode, conn: Conn)

  /** Where the code departs from what it evidently intends, the model
      carries both readings: the code as written, and the corrected one. */
  datatype Variant = AsWritten | Corrected

  /** What `stat` reports about a file: `st_mode` bits and `st_size`. */
  datatype FileStat = FileStat(mode: bv32, size: nat)

  /** Memory an `iovec` entry points at. */
  datatype IoBase = WriteBuffer | FileMapping

  datatype IoVec = IoVec(base: IoBase, len: nat)

  datatype Conn = Conn(
    // read side
    readBuf: seq<char>,
    readIdx: nat,        // bytes received
    checkedIdx: nat,     // bytes examined by the line scanner
    startLine: nat,      // start of the line being parsed
    // request parsing
    state: CheckState,
    linger: bool,        // keep-alive requested
    url: Ptr,
    version: Ptr,
    contentLength: int,
    host: Ptr,
    // response side
    writeBuf: seq<char>,
    writeIdx: nat,       // bytes queued in the write buffer
    realFile: string,    // resolved path, as a C string
    fileStat: FileStat,
    mapped: bool,        // the file is mapped for sending
    iv: seq<IoVec>,
    ivCount: nat)

  predicate IsTerminator(ch: char) {
    ch == CR || ch == LF
  }

  /** No line terminator among `b[from..to)`. */
  predicate NoTerminator(b: seq<char>, from: nat, to: nat)
    requires from <= to <= |b|
  {
    forall k :: from <= k < to ==> !IsTerminator(b[k])
  }

  /** The read-side invariant: buffer at capacity, cursors ordered and in
      bounds, a URL once the request line is accepted, and no terminator in
      the part of the current line the scanner has already passed over. */
  predicate ReadValid(c: Conn) {
    && |c.readBuf| == READ_BUFFER_SIZE
    && c.startLine <= c.checkedIdx <= c.readIdx <= READ_BUFFER_SIZE
    && (c.state != RequestLine ==> c.url.At?)
    && NoTerminator(c.readBuf, c.startLine, c.checkedIdx)
  }

  /** The write-side invariant: buffer at capacity, room for the NUL that
      `vsnprintf` writes after the queued bytes, two `iovec` slots. */
  predicate WriteValid(c: Conn) {
    && |c.writeBuf| == WRITE_BUFFER_SIZE
    && c.writeIdx < WRITE_BUFFER_SIZE - 1
    && |c.iv| == 2
  }

  predicate Valid(c: Conn) {
    ReadValid(c) && WriteValid(c)
  }

  function Zeros(n: nat): (s: seq<char>)
    ensures |s| == n && forall i :: 0 <= i < n ==> s[i] == NUL
  {
    seq(n, _ => NUL)
  }

  /** `init()`: starts a new request.  Cursors and parsed fields are zeroed,
      both buffers and the path are cleared; the file status, the mapping and
      the `iovec` descriptors are left as they were. */
  function Init(c: Conn): (r: Conn)
    requires |c.iv| == 2
    ensures Valid(r)
    ensures r.readIdx == 0 && r.checkedIdx == 0 && r.startLine == 0 && r.writeIdx == 0
    ensures r.state == RequestLine && !r.linger && r.contentLength == 0
    ensures r.url == Null && r.version == Null && r.host == Null
    ensures CStr(r.readBuf, 0) == [] && CStr(r.writeBuf, 0) == [] && r.realFile == []
    ensures r.fileStat == c.fileStat && r.mapped == c.mapped
    ensures r.iv == c.iv && r.ivCount == c.ivCount
  {
    c.(state := RequestLine, linger := false, url := Null, version := Null,
       contentLength := 0, host := Null, startLine := 0, checkedIdx := 0,
       readIdx := 0, writeIdx := 0, readBuf := Zeros(READ_BUFFER_SIZE),
       writeBuf := Zeros(WRITE_BUFFER_SIZE), realFile := [])
  }

  /** A reset forgets the request it ends: connections that differ only in
      their request state reset to the same connection, and resetting twice
      is resetting once. */
  lemma InitForgetsRequest(c: Conn, d: Conn)
    requires |c.iv| == 2 && |d.iv| == 2
    requires c.fileStat == d.fileStat && c.mapped == d.mapped
    requires c.iv == d.iv && c.ivCount == d.ivCount
    ensures Init(c) == Init(d)
    ensures Init(Init(c)) == Init(c)
  {
  }

  // ---------------------------------------------------------------------------
  // Received bytes

  /** `b` with `y` stored from offset `at` on. */
  function Fill(b: seq<char>, at: nat, y: seq<char>): (r: seq<char>)
    requires at + |y| <= |b|
    ensures |r| == |b|
    ensures forall k :: 0 <= k < at ==> r[k] == b[k]
    ensures forall k :: 0 <= k < |y| ==> r[at + k] == y[k]
    ensures forall k :: at + |y| <= k < |b| ==> r[k] == b[k]
  {
    b[..at] + y + b[at + |y|..]
  }

  /** Storing received bytes commutes with a write below the fill point. */
  lemma FillWriteBelow(b: seq<char>, at: nat, y: seq<char>, j: nat, x: char)
    requires at + |y| <= |b| && j < at
    ensures Fill(b[j := x], at, y) == Fill(b, at, y)[j := x]
  {
    var l, r := Fill(b[j := x], at, y), Fill(b, at, y)[j := x];
    assert |l| == |r|;
    forall k | 0 <= k < |l|
      ensures l[k] == r[k]
    {
      if k < at {
      } else if k < at + |y| {
        assert l[at + (k - at)] == y[k - at];
      }
    }
  }

  /** Bytes `y` arrive from the socket and are appended after `readIdx`. */
  function Deliver(c: Conn, y: seq<char>): (r: Conn)
    requires |c.readBuf| == READ_BUFFER_SIZE && c.readIdx + |y| <= READ_BUFFER_SIZE
    ensures r.readIdx == c.readIdx + |y| && |r.readBuf| == READ_BUFFER_SIZE
    ensures r.readBuf[..c.readIdx] == c.readBuf[..c.readIdx]
    ensures r.readBuf[c.readIdx .. r.readIdx] == y
    ensures r == c.(readBuf := r.readBuf, readIdx := r.readIdx)
    ensures ReadValid(c) ==> ReadValid(r)
  {
    var b := Fill(c.readBuf, c.readIdx, y);
    assert b[c.readIdx .. c.readIdx + |y|] == y by {
      forall k | 0 <= k < |y| ensures b[c.readIdx + k] == y[k] { }
    }
    c.(readBuf := b, readIdx := c.readIdx + |y|)
  }

  /** Delivering bytes in two parts is delivering them at once. */
  lemma {:induction false} DeliverTwice(c: Conn, x: seq<char>, y: seq<char>)
    requires |c.readBuf| == READ_BUFFER_SIZE && c.readIdx + |x| + |y| <= READ_BUFFER_SIZE
    ensures Deliver(Deliver(c, x), y) == Deliver(c, x + y)
  {
    var l, r := Deliver(Deliver(c, x), y).readBuf, Deliver(c, x + y).readBuf;
    forall k | 0 <= k < |l|
      ensures l[k] == r[k]
    {
      var i := c.readIdx;
      if k < i {
      } else if k < i + |x| {
        assert l[i + (k - i)] == x[k - i];
        assert r[i + (k - i)] == (x + y)[k - i];
      } else if k < i + |x| + |y| {
        assert l[(i + |x|) + (k - i - |x|)] == y[k - i - |x|];
        assert r[i + (k - i)] == (x + y)[k - i];
      }
    }
    assert l == r;
  }

  /** How the socket's receive loop ends once it has no more bytes to give. */
  datatype RecvEnd = WouldBlock | PeerClosed | RecvError

  /** `read()`: drains `pending` into the read buffer.  A full buffer fails at
      once.  Otherwise bytes are appended until the socket has none left to
      give; the last `recv` then ends as `end` says: it would block (success),
      reports end of stream, or fails.  When `pending` exactly fills the buffer
      that last `recv` is asked for zero bytes, and `end` stands for whatever it
      reports.  When more bytes are pending than fit, the zero-byte `recv`
      returns 0 with data still queued, which reads as end of stream
      (failure). */
  function Read(c: Conn, pending: seq<char>, end: RecvEnd): (r: (bool, Conn))
    requires |c.readBuf| == READ_BUFFER_SIZE && c.readIdx <= READ_BUFFER_SIZE
    ensures var (ok, d) := r;
      && (ok <==> c.readIdx < READ_BUFFER_SIZE
                  && |pending| <= READ_BUFFER_SIZE - c.readIdx && end == WouldBlock)
      && (ok ==> d.readIdx == c.readIdx + |pending|)
      && d.readIdx == c.readIdx + Min(|pending|, READ_BUFFER_SIZE - c.readIdx)
      && |d.readBuf| == READ_BUFFER_SIZE
      && d.readBuf[..c.readIdx] == c.readBuf[..c.readIdx]
      && d.readBuf[c.readIdx .. d.readIdx] == pending[..d.readIdx - c.readIdx]
      && d == c.(readBuf := d.readBuf, readIdx := d.readIdx)
  {
    if c.readIdx >= READ_BUFFER_SIZE then (false, c)
    else if |pending| > READ_BUFFER_SIZE - c.readIdx then
      (false, Deliver(c, pending[..READ_BUFFER_SIZE - c.readIdx]))
    else
      (end == WouldBlock, Deliver(c, pending))
  }

  function Min(a: nat, b: nat): nat {
    if a <= b then a else b
  }
}

=== FILE: master.dfy ===
/** The master state machine (`process_read`): it asks the line scanner for
    the next complete line, hands it to the handler of the current state, and
    stops with an outcome as soon as a handler has one; and `do_request`,
    which maps the URL of a complete request to a file. */
module Master {
  import opened CLib
  import opened Connection
  import opened Scanner
  import opened Request

  // ---------------------------------------------------------------------------
  // Resolving the URL (`do_request`)

  /** The document root every URL is resolved under. */
  const DOC_ROOT: string := "/var/www/html"

  /** `stat` bits: readable by others, the file-type mask, directory. */
  const S_IROTH: bv32 := 0x4
  const S_IFMT: bv32 := 0xF000
  const S_IFDIR: bv32 := 0x4000

  /** What `stat` can see: the file status of every existing path. */
  type Files = map<string, FileStat>

  predicate Readable(st: FileStat) {
    st.mode & S_IROTH != 0
  }

  predicate IsDir(st: FileStat) {
    st.mode & S_IFMT == S_IFDIR
  }

  /** The path `do_request` builds: the document root followed by the URL,
      of which `strncpy` copies at most what fits before the last byte of
      the `FILENAME_LEN` buffer (which stays NUL). */
  function RealPath(url: string): (p: string)
    ensures |p| <= FILENAME_LEN - 1
    ensures |p| >= |DOC_ROOT| && p[..|DOC_ROOT|] == DOC_ROOT
    ensures p[|DOC_ROOT|..] <= url
    ensures |url| <= FILENAME_LEN - |DOC_ROOT| - 1 ==> p == DOC_ROOT + url
    ensures |url| > FILENAME_LEN - |DOC_ROOT| - 1 ==> |p| == FILENAME_LEN - 1
  {
    DOC_ROOT + url[..Min(|url|, FILENAME_LEN - |DOC_ROOT| - 1)]
  }

  /** `do_request`, with `stat` answered by `fs`: a missing file is
      NO_RESOURCE, a file others may not read FORBIDDEN_REQUEST, a
      directory BAD_REQUEST, anything else FILE_REQUEST (and is mapped).
      The checks run in that order; the read side is left alone. */
  function DoRequest(c: Conn, fs: Files): (r: Step)
    requires c.url.At?
    ensures r.code in {NoResource, ForbiddenRequest, BadRequest, FileRequest}
    ensures r.conn == c.(realFile := r.conn.realFile, fileStat := r.conn.fileStat, mapped := r.conn.mapped)
    ensures r.conn.realFile == RealPath(PtrText(c.readBuf, c.url))
    ensures r.code == NoResource <==> r.conn.realFile !in fs
    ensures r.code != NoResource ==> r.conn.fileStat == fs[r.conn.realFile]
    ensures r.code == ForbiddenRequest <==> r.conn.realFile in fs && !Readable(r.conn.fileStat)
    ensures r.code == BadRequest <==> r.conn.realFile in fs && Readable(r.conn.fileStat) && IsDir(r.conn.fileStat)
    ensures r.code == FileRequest <==> r.conn.realFile in fs && Readable(r.conn.fileStat) && !IsDir(r.conn.fileStat)
    ensures r.conn.mapped <==> r.code == FileRequest || c.mapped
  {
    var path := RealPath(PtrText(c.readBuf, c.url));
    if path !in fs then Step(NoResource, c.(realFile := path))
    else
      var st := fs[path];
      if !Readable(st) then Step(ForbiddenRequest, c.(realFile := path, fileStat := st))
      else if IsDir(st) then Step(BadRequest, c.(realFile := path, fileStat := st))
      else Step(FileRequest, c.(realFile := path, fileStat := st, mapped := true))
  }

  // ---------------------------------------------------------------------------
  // The loop (`process_read`)

  /** The body length is never negative, and positive once a body is awaited. */
  predicate LengthOk(c: Conn) {
    c.contentLength >= 0 && (c.state == Content ==> c.contentLength > 0)
  }

  /** Handler rank, so that the loop and its body decrease together. */
  function HandlerRank(s: CheckState): nat {
    if s == Header then 2 else 1
  }

  /** One turn of the loop once a line is available at `startLine`: the line
      is taken (`startLine` moves to `checkedIdx`) and handed to the handler
      of the current state.  A BAD_REQUEST ends the loop; a complete request
      goes to `do_request`; otherwise the loop goes on, and after an
      incomplete body it goes on with the line status OPEN. */
  function Handle(c: Conn, variant: Variant, fs: Files): (r: Step)
    requires ReadValid(c)
    ensures ReadValid(r.conn)
    ensures r.code !in {GetRequest, InternalError}
    ensures r.conn.readIdx == c.readIdx
    ensures r.conn.writeBuf == c.writeBuf && r.conn.writeIdx == c.writeIdx
    ensures r.conn.iv == c.iv && r.conn.ivCount == c.ivCount
    ensures r.code in {NoResource, ForbiddenRequest, FileRequest} ==> r.conn.state != RequestLine
    ensures r.code == FileRequest ==> r.conn.mapped && r.conn.realFile in fs
                                      && r.conn.fileStat == fs[r.conn.realFile]
    ensures variant == AsWritten && r.code == BadRequest
            ==> r.conn.state == RequestLine || IsDir(r.conn.fileStat)
    ensures variant == Corrected && LengthOk(c) ==> LengthOk(r.conn)
    decreases c.readIdx - c.checkedIdx, HandlerRank(c.state), 0
  {
    var text := c.startLine;
    var c1 := c.(startLine := c.checkedIdx);
    match c1.state
    case RequestLine =>
      var s := ParseRequestLine(c1, text);
      if s.code == BadRequest then s else ReadLoop(s.conn, LineOk, variant, fs)
    case Header =>
      var s := ParseHeaders(c1, text, variant);
      if s.code == BadRequest then s
      else if s.code == GetRequest then DoRequest(s.conn, fs)
      else ReadLoop(s.conn, LineOk, variant, fs)
    case Content =>
      var s := ParseContent(c1, text);
      if s.code == GetRequest then DoRequest(s.conn, fs)
      else ReadLoop(s.conn, LineOpen, variant, fs)
  }

  /** The loop condition of `process_read`, with the status of the last
      line `ls`: in the CONTENT state right after a complete line the body
      handler runs without scanning; otherwise the scanner runs and a
      complete line goes to `Handle`, while an open or malformed line ends
      the loop with NO_REQUEST.  The corrected reading instead answers a
      malformed line with BAD_REQUEST, and waits for more bytes after an
      incomplete body rather than scanning the body for lines. */
  function ReadLoop(c: Conn, ls: LineStatus, variant: Variant, fs: Files): (r: Step)
    requires ReadValid(c)
    ensures ReadValid(r.conn)
    ensures r.code !in {GetRequest, InternalError}
    ensures r.conn.readIdx == c.readIdx
    ensures r.conn.writeBuf == c.writeBuf && r.conn.writeIdx == c.writeIdx
    ensures r.conn.iv == c.iv && r.conn.ivCount == c.ivCount
    ensures r.code in {NoResource, ForbiddenRequest, FileRequest} ==> r.conn.state != RequestLine
    ensures r.code == FileRequest ==> r.conn.mapped && r.conn.realFile in fs
                                      && r.conn.fileStat == fs[r.conn.realFile]
    ensures variant == AsWritten && r.code == BadRequest
            ==> r.conn.state == RequestLine || IsDir(r.conn.fileStat)
    ensures variant == Corrected && LengthOk(c) ==> LengthOk(r.conn)
    decreases c.readIdx - c.checkedIdx, if c.state == Content && ls == LineOk then 1 else 0, 1
  {
    if c.state == Content && ls == LineOk then Handle(c, variant, fs)
    else if c.state == Content && variant == Corrected then Step(NoRequest, c)
    else
      var s := ScanLine(c.readBuf, c.checkedIdx, c.readIdx);
      var c1 := c.(readBuf := s.buf, checkedIdx := s.checked);
      if s.status == LineOk then Handle(c1, variant, fs)
      else if s.status == LineBad && variant == Corrected then Step(BadRequest, c1)
      else Step(NoRequest, c1)
  }

  /** `process_read` as written: every call starts with the line status OK. */
  function ProcessReadAsWritten(c: Conn, fs: Files): (r: Step)
    requires ReadValid(c)
    ensures r.code !in {GetRequest, InternalError}
    ensures r.conn.readIdx == c.readIdx && r.conn.writeIdx == c.writeIdx
  {
    ReadLoop(c, LineOk, AsWritten, fs)
  }

  /** `process_read` as evidently intended. */
  function ProcessRead(c: Conn, fs: Files): (r: Step)
    requires ReadValid(c)
    ensures r.code !in {GetRequest, InternalError}
    ensures r.conn.readIdx == c.readIdx && r.conn.writeIdx == c.writeIdx
  {
    ReadLoop(c, LineOk, Corrected, fs)
  }

  // ---------------------------------------------------------------------------
  // Properties of the loop

  /** With no terminator left to read outside the body, the loop stops with
      NO_REQUEST, everything received scanned, and nothing else changed. */
  lemma OpenLineWaits(c: Conn, variant: Variant, fs: Files)
    requires ReadValid(c) && c.state != Content
    requires NoTerminator(c.readBuf, c.checkedIdx, c.readIdx)
    ensures ReadLoop(c, LineOk, variant, fs) == Step(NoRequest, c.(checkedIdx := c.readIdx))
  {
    ScanOpenWhenNoTerminator(c.readBuf, c.checkedIdx, c.readIdx);
  }

  /** A malformed line, as written, stops the loop with NO_REQUEST on the
      offending byte; every later call stops on it again, whatever arrives,
      so the request neither completes nor fails.  The corrected loop
      answers BAD_REQUEST at once. */
  lemma BadLineSticks(c: Conn, fs: Files, y: seq<char>)
    requires ReadValid(c) && c.state != Content && c.readIdx + |y| <= READ_BUFFER_SIZE
    requires ScanLine(c.readBuf, c.checkedIdx, c.readIdx).status == LineBad
    ensures var r := ReadLoop(c, LineOk, AsWritten, fs);
            r.code == NoRequest
            && ReadLoop(Deliver(r.conn, y), LineOk, AsWritten, fs) == Step(NoRequest, Deliver(r.conn, y))
    ensures ReadLoop(c, LineOk, Corrected, fs).code == BadRequest
  {
    var b, p := c.readBuf, ScanLine(c.readBuf, c.checkedIdx, c.readIdx).checked;
    BadLineStops(c, AsWritten, fs);
    BadLineStops(c, Corrected, fs);
    FirstTerminatorIs(b, p, c.readIdx, p);
    assert ScanLine(b, p, c.readIdx) == ScanLine(b, c.checkedIdx, c.readIdx);
    ScanDecidedExtends(b, y, p, c.readIdx);
    var d := Deliver(c.(checkedIdx := p), y);
    BadLineStops(d, AsWritten, fs);
    assert d.(checkedIdx := p) == d;
  }

  /** A malformed line stops the loop on the offending byte. */
  lemma BadLineStops(c: Conn, variant: Variant, fs: Files)
    requires ReadValid(c) && c.state != Content
    requires ScanLine(c.readBuf, c.checkedIdx, c.readIdx).status == LineBad
    ensures var p := ScanLine(c.readBuf, c.checkedIdx, c.readIdx).checked;
            ReadLoop(c, LineOk, variant, fs)
            == Step(if variant == Corrected then BadRequest else NoRequest, c.(checkedIdx := p))
  {
  }

  /** In the body the line status matters: the body handler runs only right
      after a complete line, i.e. the body is scanned for lines. */
  predicate BodyAligned(c: Conn) {
    c.state == Content ==> c.startLine == c.checkedIdx
  }

  /** Resuming (corrected loop): when the loop stops with NO_REQUEST, the
      connection it leaves behaves, once more bytes arrive, exactly as the
      connection it started from would with those bytes. */
  lemma {:induction false} ResumeLoop(c: Conn, ls: LineStatus, fs: Files, y: seq<char>)
    requires ReadValid(c) && BodyAligned(c) && c.readIdx + |y| <= READ_BUFFER_SIZE
    requires ReadLoop(c, ls, Corrected, fs).code == NoRequest
    ensures ReadLoop(Deliver(ReadLoop(c, ls, Corrected, fs).conn, y), LineOk, Corrected, fs)
            == ReadLoop(Deliver(c, y), LineOk, Corrected, fs)
    decreases c.readIdx - c.checkedIdx, if c.state == Content && ls == LineOk then 1 else 0
  {
    if c.state == Content {
      BodyStops(c, ls, fs);
    } else if ScanLine(c.readBuf, c.checkedIdx, c.readIdx).status == LineOpen {
      ResumeOpen(c, fs, y);
    } else {
      var r := TakeLine(c, fs);
      TakeLineDeliver(c, fs, y);
      ResumeLoop(r.conn, LineOk, fs, y);
    }
  }

  /** An incomplete body stops the corrected loop where it started. */
  lemma BodyStops(c: Conn, ls: LineStatus, fs: Files)
    requires ReadValid(c) && BodyAligned(c) && c.state == Content
    requires ReadLoop(c, ls, Corrected, fs).code == NoRequest
    ensures ReadLoop(c, ls, Corrected, fs).conn == c
  {
    if ls == LineOk {
      assert c.(startLine := c.checkedIdx) == c;
      var s := ParseContent(c, c.startLine);
      assert s.code == NoRequest && s.conn == c;
      assert ReadLoop(c, ls, Corrected, fs) == Handle(c, Corrected, fs);
      assert Handle(c, Corrected, fs) == ReadLoop(c, LineOpen, Corrected, fs);
    }
  }

  /** An open line: the scan resumes where it stopped. */
  lemma ResumeOpen(c: Conn, fs: Files, y: seq<char>)
    requires ReadValid(c) && c.state != Content && c.readIdx + |y| <= READ_BUFFER_SIZE
    requires ScanLine(c.readBuf, c.checkedIdx, c.readIdx).status == LineOpen
    ensures ReadLoop(Deliver(ReadLoop(c, LineOk, Corrected, fs).conn, y), LineOk, Corrected, fs)
            == ReadLoop(Deliver(c, y), LineOk, Corrected, fs)
  {
    var k := ScanLine(c.readBuf, c.checkedIdx, c.readIdx).checked;
    OpenLineStops(c, Corrected, fs);
    assert ReadLoop(c, LineOk, Corrected, fs).conn == c.(checkedIdx := k);
    ResumeFromScan(c, k, fs, y);
  }

  /** Resuming the scan where an open line stopped is resuming it where it
      began, once more bytes have arrived. */
  lemma ResumeFromScan(c: Conn, k: nat, fs: Files, y: seq<char>)
    requires ReadValid(c) && ReadValid(c.(checkedIdx := k)) && c.state != Content
    requires c.readIdx + |y| <= READ_BUFFER_SIZE && c.checkedIdx <= k <= c.readIdx
    requires NoTerminator(c.readBuf, c.checkedIdx, k)
    ensures ReadLoop(Deliver(c.(checkedIdx := k), y), LineOk, Corrected, fs)
            == ReadLoop(Deliver(c, y), LineOk, Corrected, fs)
  {
    var e := Deliver(c, y);
    var e' := Deliver(c.(checkedIdx := k), y);
    DeliverResumes(c, k, y);
    assert e.readBuf == Fill(c.readBuf, c.readIdx, y);
    ScanOpenResumes(c.readBuf, y, c.checkedIdx, k, c.readIdx);
    assert e'.readBuf == e.readBuf && e'.checkedIdx == k && e.checkedIdx == c.checkedIdx;
    LoopFromScan(e, e', Corrected, fs);
  }

  /** An open line stops the loop, the scan having advanced. */
  lemma OpenLineStops(c: Conn, variant: Variant, fs: Files)
    requires ReadValid(c) && c.state != Content
    requires ScanLine(c.readBuf, c.checkedIdx, c.readIdx).status == LineOpen
    ensures ReadLoop(c, LineOk, variant, fs)
            == Step(NoRequest, c.(checkedIdx := ScanLine(c.readBuf, c.checkedIdx, c.readIdx).checked))
  {
  }

  lemma DeliverResumes(c: Conn, k: nat, y: seq<char>)
    requires |c.readBuf| == READ_BUFFER_SIZE && c.readIdx + |y| <= READ_BUFFER_SIZE
    ensures Deliver(c.(checkedIdx := k), y) == Deliver(c, y).(checkedIdx := k)
  {
  }

  /** Two connections that differ only in where the scan resumes, and whose
      scans agree, run the loop alike. */
  lemma LoopFromScan(c: Conn, d: Conn, variant: Variant, fs: Files)
    requires ReadValid(c) && ReadValid(d) && c.state != Content
    requires d == c.(checkedIdx := d.checkedIdx)
    requires ScanLine(d.readBuf, d.checkedIdx, d.readIdx) == ScanLine(c.readBuf, c.checkedIdx, c.readIdx)
    ensures ReadLoop(d, LineOk, variant, fs) == ReadLoop(c, LineOk, variant, fs)
  {
    var s := ScanLine(c.readBuf, c.checkedIdx, c.readIdx);
    assert d.(readBuf := s.buf, checkedIdx := s.checked) == c.(readBuf := s.buf, checkedIdx := s.checked);
  }

  /** The connection once the scanned line has been handled, when the
      handler lets the loop go on: `startLine` has moved to `checkedIdx`,
      just past the line. */
  function TakeLine(c: Conn, fs: Files): (r: Step)
    requires ReadValid(c) && c.state != Content
    requires ScanLine(c.readBuf, c.checkedIdx, c.readIdx).status == LineOk
    ensures ReadValid(r.conn) && BodyAligned(r.conn)
    ensures r.conn.startLine == r.conn.checkedIdx
    ensures r.conn.readIdx == c.readIdx && r.conn.checkedIdx > c.checkedIdx
    ensures r.code == NoRequest ==> ReadLoop(c, LineOk, Corrected, fs) == ReadLoop(r.conn, LineOk, Corrected, fs)
    ensures r.code != NoRequest ==> ReadLoop(c, LineOk, Corrected, fs).code != NoRequest
  {
    var s := ScanLine(c.readBuf, c.checkedIdx, c.readIdx);
    var c2 := c.(readBuf := s.buf, checkedIdx := s.checked, startLine := s.checked);
    if c.state == RequestLine then ParseRequestLine(c2, c.startLine)
    else ParseHeaders(c2, c.startLine, Corrected)
  }

  /** Taking a complete line commutes with bytes that arrive later. */
  lemma TakeLineDeliver(c: Conn, fs: Files, y: seq<char>)
    requires ReadValid(c) && c.state != Content && c.readIdx + |y| <= READ_BUFFER_SIZE
    requires ScanLine(c.readBuf, c.checkedIdx, c.readIdx).status == LineOk
    requires TakeLine(c, fs).code == NoRequest
    ensures ReadLoop(Deliver(c, y), LineOk, Corrected, fs)
            == ReadLoop(Deliver(TakeLine(c, fs).conn, y), LineOk, Corrected, fs)
  {
    var b := c.readBuf;
    var s := ScanLine(b, c.checkedIdx, c.readIdx);
    ScanDecidedExtends(b, y, c.checkedIdx, c.readIdx);
    var text := c.startLine;
    CStrAgree(s.buf, s.buf, text, s.checked - 1);
    var c2 := c.(readBuf := s.buf, checkedIdx := s.checked, startLine := s.checked);
    var d := Deliver(c, y);
    assert d.(readBuf := Fill(s.buf, c.readIdx, y), checkedIdx := s.checked, startLine := s.checked)
           == Deliver(c2, y);
    if c.state == RequestLine {
      RequestLineDeliver(c2, text, y);
    } else {
      HeadersDeliver(c2, text, Corrected, y);
    }
  }

  /** A request that arrives in two parts is processed as if it had arrived
      at once: feeding the second part to the connection the first call left
      gives the outcome of one call on both parts (corrected loop). */
  lemma Fragmentation(c: Conn, fs: Files, x: seq<char>, y: seq<char>)
    requires ReadValid(c) && BodyAligned(c) && c.readIdx + |x| + |y| <= READ_BUFFER_SIZE
    requires ProcessRead(Deliver(c, x), fs).code == NoRequest
    ensures ProcessRead(Deliver(ProcessRead(Deliver(c, x), fs).conn, y), fs) == ProcessRead(Deliver(c, x + y), fs)
  {
    ResumeLoop(Deliver(c, x), LineOk, fs, y);
    DeliverTwice(c, x, y);
  }

  /** Once in the body, the corrected loop stays there: the body handler
      and `do_request` leave the state alone. */
  lemma CorrectedStaysInBody(c: Conn, ls: LineStatus, fs: Files)
    requires ReadValid(c) && c.state == Content
    ensures ReadLoop(c, ls, Corrected, fs).conn.state == Content
  {
    if ls == LineOk {
      var c1 := c.(startLine := c.checkedIdx);
      var s := ParseContent(c1, c.startLine);
      assert s.conn.state == Content;
      assert ReadLoop(c, ls, Corrected, fs) == Handle(c, Corrected, fs);
      if s.code != GetRequest {
        assert ReadLoop(s.conn, LineOpen, Corrected, fs) == Step(NoRequest, s.conn);
      }
    }
  }

  /** The two readings of `parse_headers` differ only where the corrected one
      rejects the line. */
  lemma HeadersAgree(c: Conn, text: nat)
    requires c.state == Header
    requires ParseHeaders(c, text, Corrected).code != BadRequest
    ensures ParseHeaders(c, text, AsWritten) == ParseHeaders(c, text, Corrected)
  {
  }

  /** Outside the body the loop as written and the corrected loop agree,
      unless the corrected one rejects the request or reaches the body:
      only a malformed line, a negative Content-Length and the body handling
      tell them apart. */
  lemma {:induction false} VariantsAgree(c: Conn, ls: LineStatus, fs: Files)
    requires ReadValid(c) && c.state != Content
    requires var r := ReadLoop(c, ls, Corrected, fs);
             r.code != BadRequest && r.conn.state != Content
    ensures ReadLoop(c, ls, AsWritten, fs) == ReadLoop(c, ls, Corrected, fs)
    decreases c.readIdx - c.checkedIdx, 0
  {
    var s := ScanLine(c.readBuf, c.checkedIdx, c.readIdx);
    var c1 := c.(readBuf := s.buf, checkedIdx := s.checked);
    ScanTurn(c, ls, AsWritten, fs);
    ScanTurn(c, ls, Corrected, fs);
    if s.status == LineOk {
      HandleAgrees(c1, fs);
    } else if s.status == LineBad {
      assert false;
    }
  }

  /** Outside the body, a call of the loop is one scan and what follows it. */
  lemma ScanTurn(c: Conn, ls: LineStatus, variant: Variant, fs: Files)
    requires ReadValid(c) && c.state != Content
    ensures var s := ScanLine(c.readBuf, c.checkedIdx, c.readIdx);
            var c1 := c.(readBuf := s.buf, checkedIdx := s.checked);
            && (s.status == LineOk ==> ReadValid(c1) && c1.readIdx - c1.checkedIdx < c.readIdx - c.checkedIdx)
            && (s.status == LineOk ==> ReadLoop(c, ls, variant, fs) == Handle(c1, variant, fs))
            && (s.status == LineBad && variant == Corrected ==> ReadLoop(c, ls, variant, fs) == Step(BadRequest, c1))
            && (s.status == LineBad && variant == AsWritten ==> ReadLoop(c, ls, variant, fs) == Step(NoRequest, c1))
            && (s.status == LineOpen ==> ReadLoop(c, ls, variant, fs) == Step(NoRequest, c1))
  {
  }

  /** One turn of the loop outside the body, under the same conditions. */
  lemma {:induction false} HandleAgrees(c: Conn, fs: Files)
    requires ReadValid(c) && c.state != Content
    requires var r := Handle(c, Corrected, fs);
             r.code != BadRequest && r.conn.state != Content
    ensures Handle(c, AsWritten, fs) == Handle(c, Corrected, fs)
    decreases c.readIdx - c.checkedIdx, 1
  {
    var c1 := c.(startLine := c.checkedIdx);
    if c.state == RequestLine {
      var p := ParseRequestLine(c1, c.startLine);
      if p.code != BadRequest {
        assert Handle(c, Corrected, fs) == ReadLoop(p.conn, LineOk, Corrected, fs);
        assert Handle(c, AsWritten, fs) == ReadLoop(p.conn, LineOk, AsWritten, fs);
        VariantsAgree(p.conn, LineOk, fs);
      }
    } else {
      var p := ParseHeaders(c1, c.startLine, Corrected);
      assert p.code != BadRequest;
      HeadersAgree(c1, c.startLine);
      if p.code == NoRequest {
        assert Handle(c, Corrected, fs) == ReadLoop(p.conn, LineOk, Corrected, fs);
        assert Handle(c, AsWritten, fs) == ReadLoop(p.conn, LineOk, AsWritten, fs);
        if p.conn.state == Content {
          CorrectedStaysInBody(p.conn, LineOk, fs);
          assert false;
        }
        VariantsAgree(p.conn, LineOk, fs);
      }
    }
  }

  /** For a request the corrected loop neither rejects nor takes into the
      body (a GET without a body, say), the loop as written is as
      indifferent to fragmentation as the corrected one: after the second
      part it gives the outcome and connection of one call on both parts. */
  lemma FragmentationAsWritten(c: Conn, fs: Files, x: seq<char>, y: seq<char>)
    requires ReadValid(c) && c.state != Content && c.readIdx + |x| + |y| <= READ_BUFFER_SIZE
    requires ProcessRead(Deliver(c, x), fs).code == NoRequest
    requires var r := ProcessRead(Deliver(c, x + y), fs);
             r.code != BadRequest && r.conn.state != Content
    ensures ProcessReadAsWritten(Deliver(c, x), fs) == ProcessRead(Deliver(c, x), fs)
    ensures ProcessReadAsWritten(Deliver(ProcessReadAsWritten(Deliver(c, x), fs).conn, y), fs)
            == ProcessReadAsWritten(Deliver(c, x + y), fs)
  {
    var d := Deliver(c, x);
    var r1 := ReadLoop(d, LineOk, Corrected, fs);
    Fragmentation(c, fs, x, y);
    var e := Deliver(r1.conn, y);
    if r1.conn.state == Content {
      CorrectedStaysInBody(e, LineOk, fs);
      assert false;
    }
    if d.state == Content {
      CorrectedStaysInBody(d, LineOk, fs);
      assert false;
    }
    VariantsAgree(d, LineOk, fs);
    VariantsAgree(e, LineOk, fs);
    VariantsAgree(Deliver(c, x + y), LineOk, fs);
  }

  /** The situation of the two lemmas below: in the body, 4 bytes announced,
      `a\r\n` received. */
  predicate BodyPrefix(c: Conn) {
    && ReadValid(c) && c.state == Content && c.startLine == c.checkedIdx
    && c.contentLength == 4 && c.checkedIdx + 4 <= READ_BUFFER_SIZE
    && c.readIdx == c.checkedIdx + 3
    && c.readBuf[c.checkedIdx] == 'a' && c.readBuf[c.checkedIdx + 1] == CR
    && c.readBuf[c.checkedIdx + 2] == LF
  }

  /** As written, an incomplete body is scanned for lines, which moves
      `checkedIdx` past the bytes already received, and the body length is
      then counted from `checkedIdx`.  Here a 4-byte body `a\r\nb` arrives as
      `a\r\n` and then `b`, and the split run still waits after the last byte
      (`BodyAtOnce`: received at once, it completes).  The `\r\n` plays no
      part: `BodySplitWaits` shows the same for any body without one. */
  lemma BodySplitStalls(c: Conn, fs: Files)
    requires BodyPrefix(c)
    ensures var r := ReadLoop(c, LineOk, AsWritten, fs);
            r.code == NoRequest && ReadLoop(Deliver(r.conn, "b"), LineOk, AsWritten, fs).code == NoRequest
  {
    var k := c.checkedIdx;
    var c2 := c.(readBuf := c.readBuf[k + 1 := NUL][k + 2 := NUL], checkedIdx := k + 3, startLine := k + 3);
    BodyFirstPart(c, fs);
    // second call: the body is counted from `k + 3`, and one byte is not enough
    var d := Deliver(c2, "b");
    assert d.readBuf[k + 3] == 'b';
    BodyWaits(d, AsWritten, fs);
    ScanOpenWhenNoTerminator(d.readBuf, k + 3, k + 4);
    BodyOpen(d, fs);
  }

  /** As written, a body that arrives in two parts, the first non-empty and
      free of line terminators, is never completed: the scanner leaves
      `checkedIdx` at `readIdx` after the first part, and the second part, shorter than the whole body, is
      then measured against the full length.  This holds even when the second
      part supplies exactly the missing bytes; corrected, `Fragmentation`
      makes the split run agree with the run on both parts at once. */
  lemma BodySplitWaits(c: Conn, fs: Files, y: seq<char>)
    requires ReadValid(c) && c.state == Content && c.startLine == c.checkedIdx
    requires c.checkedIdx < c.readIdx < c.checkedIdx + c.contentLength
    requires NoTerminator(c.readBuf, c.checkedIdx, c.readIdx)
    requires c.readIdx + |y| <= READ_BUFFER_SIZE && |y| < c.contentLength
    requires forall i :: 0 <= i < |y| ==> !IsTerminator(y[i])
    ensures var r := ReadLoop(c, LineOk, AsWritten, fs);
            && r.code == NoRequest && r.conn.checkedIdx == c.readIdx
            && ReadLoop(Deliver(r.conn, y), LineOk, AsWritten, fs).code == NoRequest
  {
    BodyUnscanned(c, fs);
    assert c.(startLine := c.checkedIdx, checkedIdx := c.readIdx) == c.(checkedIdx := c.readIdx);
    var d := Deliver(c.(checkedIdx := c.readIdx), y);
    forall k | d.checkedIdx <= k < d.readIdx ensures !IsTerminator(d.readBuf[k]) {
      assert d.readBuf[k] == d.readBuf[c.readIdx .. d.readIdx][k - c.readIdx];
    }
    BodyUnscanned(d, fs);
  }

  /** As written, an incomplete body with no line terminator after
      `checkedIdx` ends the loop with every received byte scanned. */
  lemma BodyUnscanned(c: Conn, fs: Files)
    requires ReadValid(c) && c.state == Content
    requires c.readIdx < c.contentLength + c.checkedIdx
    requires NoTerminator(c.readBuf, c.checkedIdx, c.readIdx)
    ensures ReadLoop(c, LineOk, AsWritten, fs)
            == Step(NoRequest, c.(startLine := c.checkedIdx, checkedIdx := c.readIdx))
  {
    var c1 := c.(startLine := c.checkedIdx);
    assert ParseContent(c1, c.startLine) == Step(NoRequest, c1);
    ScanOpenWhenNoTerminator(c1.readBuf, c1.checkedIdx, c1.readIdx);
    BodyOpen(c1, fs);
  }

  /** The first part: the body handler waits, then the scanner takes `a` as
      a line and the handler waits again, now for 4 bytes after it. */
  lemma BodyFirstPart(c: Conn, fs: Files)
    requires BodyPrefix(c)
    ensures var k := c.checkedIdx;
            ReadLoop(c, LineOk, AsWritten, fs)
            == Step(NoRequest, c.(readBuf := c.readBuf[k + 1 := NUL][k + 2 := NUL],
                                  checkedIdx := k + 3, startLine := k + 3))
  {
    var k := c.checkedIdx;
    BodyWaits(c, AsWritten, fs);
    ScanCarriageReturn(c.readBuf, k, c.readIdx, k + 1);
    BodyLineTaken(c, fs);
    var c2 := c.(readBuf := c.readBuf[k + 1 := NUL][k + 2 := NUL], checkedIdx := k + 3, startLine := k + 3);
    ScanOpenWhenNoTerminator(c2.readBuf, k + 3, k + 3);
    BodyOpen(c2, fs);
    assert c2.(checkedIdx := k + 3) == c2;
  }

  /** The same body received at once completes the request, as written and
      corrected; the corrected loop also completes it when split. */
  lemma BodyAtOnce(c: Conn, fs: Files)
    requires BodyPrefix(c)
    ensures ReadLoop(Deliver(c, "b"), LineOk, AsWritten, fs).code != NoRequest
    ensures var r := ProcessRead(c, fs);
            r.code == NoRequest && ProcessRead(Deliver(r.conn, "b"), fs).code != NoRequest
  {
    BodyCompletes(Deliver(c, "b"), AsWritten, fs);
    BodyWaits(c, Corrected, fs);
    BodyCompletes(Deliver(c, "b"), Corrected, fs);
  }

  /** An incomplete body: the body handler changes nothing and the loop goes
      on with the line status OPEN. */
  lemma BodyWaits(c: Conn, variant: Variant, fs: Files)
    requires ReadValid(c) && c.state == Content && c.startLine == c.checkedIdx
    requires c.readIdx < c.contentLength + c.checkedIdx
    ensures ReadLoop(c, LineOk, variant, fs) == ReadLoop(c, LineOpen, variant, fs)
  {
    assert c.(startLine := c.checkedIdx) == c;
  }

  /** A complete body completes the request. */
  lemma BodyCompletes(c: Conn, variant: Variant, fs: Files)
    requires ReadValid(c) && c.state == Content && c.startLine == c.checkedIdx
    requires c.readIdx >= c.contentLength + c.checkedIdx
    ensures ReadLoop(c, LineOk, variant, fs).code != NoRequest
  {
    assert c.(startLine := c.checkedIdx) == c;
  }

  /** As written, a line found in an incomplete body is taken as a line:
      `startLine` and `checkedIdx` move past it. */
  lemma BodyLineTaken(c: Conn, fs: Files)
    requires ReadValid(c) && c.state == Content
    requires ScanLine(c.readBuf, c.checkedIdx, c.readIdx).status == LineOk
    requires var s := ScanLine(c.readBuf, c.checkedIdx, c.readIdx);
             c.readIdx < c.contentLength + s.checked
    ensures var s := ScanLine(c.readBuf, c.checkedIdx, c.readIdx);
            ReadLoop(c, LineOpen, AsWritten, fs)
            == ReadLoop(c.(readBuf := s.buf, checkedIdx := s.checked, startLine := s.checked), LineOpen, AsWritten, fs)
  {
  }

  /** As written, an open line in an incomplete body stops the loop. */
  lemma BodyOpen(c: Conn, fs: Files)
    requires ReadValid(c) && c.state == Content
    requires ScanLine(c.readBuf, c.checkedIdx, c.readIdx).status == LineOpen
    ensures var s := ScanLine(c.readBuf, c.checkedIdx, c.readIdx);
            ReadLoop(c, LineOpen, AsWritten, fs) == Step(NoRequest, c.(checkedIdx := s.checked))
  {
  }

  /** As written, a negative Content-Length is accepted and announces a body
      (it is not zero); the body handler then reports the body complete at
      once and writes its NUL `-contentLength` bytes before the line it was
      handed, into data already parsed. */
  lemma NegativeLengthWritesBefore(c: Conn, text: nat)
    requires c.contentLength < 0 && 0 <= text + c.contentLength && text <= |c.readBuf|
    requires c.checkedIdx <= c.readIdx
    ensures var r := ParseContent(c, text);
            && r.code == GetRequest
            && text + c.contentLength < text
            && r.conn.readBuf == c.readBuf[text + c.contentLength := NUL]
  {
  }

  /** Corrected, the body length stays positive in the body, so the body
      handler's NUL lands on the byte right after the body, at or before
      `readIdx`. */
  lemma BodyEndWrite(c: Conn)
    requires ReadValid(c) && LengthOk(c) && c.state == Content && c.startLine == c.checkedIdx
    requires c.readIdx >= c.contentLength + c.checkedIdx
    ensures var r := ParseContent(c, c.startLine);
            var z := c.checkedIdx + c.contentLength;
            && r.code == GetRequest
            && c.checkedIdx < z <= c.readIdx
            && (z < READ_BUFFER_SIZE ==> r.conn.readBuf == c.readBuf[z := NUL])
  {
  }
}

=== FILE: request.dfy ===
/** The three per-state handlers of the request parser: the request line
    (`parse_request_line`), header lines (`parse_headers`) and the body
    completeness check (`parse_content`).

    A handler receives the offset `text` of a line the scanner has completed
    and NUL-terminated, so the line is the C string `CStr(readBuf, text)`.
    The C code walks that line with pointers and cuts it into C strings by
    writing NULs into it; the model computes the same offsets on the line
    and performs the same NUL writes on the buffer. */
module Request {
  import opened CLib
  import opened Connection

  /** No blank in `s`. */
  predicate Token(s: string) {
    forall i :: 0 <= i < |s| ==> !IsBlank(s[i])
  }

  /** A non-empty run of blanks. */
  predicate Blanks(s: string) {
    |s| > 0 && forall i :: 0 <= i < |s| ==> IsBlank(s[i])
  }

  predicate StartsNonBlank(s: string) {
    |s| == 0 || !IsBlank(s[0])
  }

  /** The text a pointer designates, as a C string. */
  function PtrText(b: seq<char>, p: Ptr): string {
    if p.At? then CStr(b, p.off) else []
  }

  /** `x` is a suffix of `t`. */
  predicate EndsWith(t: string, x: string) {
    |x| <= |t| && forall k :: 0 <= k < |x| ==> x[k] == t[|t| - |x| + k]
  }

  /** The buffer `b'` is `b` with some bytes of `[lo, hi)` set to NUL. */
  predicate LineEdit(b: seq<char>, b': seq<char>, lo: nat, hi: nat) {
    && |b'| == |b|
    && forall k :: 0 <= k < |b| ==> b'[k] == b[k] || (lo <= k < hi && b'[k] == NUL)
  }

  // ---------------------------------------------------------------------------
  // Request line

  /** What `parse_request_line` leaves behind: whether the line was
      accepted, the buffer after its NUL writes, and the two pointers. */
  datatype LineFields = LineFields(ok: bool, buf: seq<char>, url: Ptr, version: Ptr)

  /** `parse_request_line`: method, target and version separated by blanks.
      The method must be `GET` and the version `HTTP/1.1`, both in any case;
      an `http://` prefix (any case) and the authority after it are skipped
      up to the next `/`; the target must then start with `/`.  On success
      the state moves to HEADER and the outcome is NO_REQUEST (keep
      parsing); every failure is BAD_REQUEST, with the pointers as far as the
      C code got.  Only the buffer, the two pointers and the state change
      (`RequestLineEdits`: the buffer only by NULs written inside the line). */
  function ParseRequestLine(c: Conn, text: nat): (r: Step)
    requires c.state == RequestLine && text <= |c.readBuf|
    ensures r.code == NoRequest || r.code == BadRequest
    ensures r.code == NoRequest <==> r.conn.state == Header
    ensures r.code == NoRequest ==> r.conn.url.At? && r.conn.version.At?
    ensures r.conn == c.(readBuf := r.conn.readBuf, url := r.conn.url,
                         version := r.conn.version, state := r.conn.state)
    ensures |r.conn.readBuf| == |c.readBuf|
  {
    var f := RequestLineFields(c.readBuf, text, c.version);
    Step(if f.ok then NoRequest else BadRequest,
         c.(readBuf := f.buf, url := f.url, version := f.version,
            state := if f.ok then Header else RequestLine))
  }

  /** First stage: split off the method at the first blank (`strpbrk`),
      cut it with a NUL and compare it with `GET`. */
  function RequestLineFields(b: seq<char>, text: nat, version: Ptr): (f: LineFields)
    requires text <= |b|
    ensures f.ok ==> f.url.At? && f.version.At?
    ensures |f.buf| == |b|
  {
    var line := CStr(b, text);
    var i := BlankFrom(line, 0);
    if i == |line| then LineFields(false, b, Null, version)
    else
      var b1 := b[text + i := NUL];
      if !CaseEqAt(line, 0, i, "GET") then LineFields(false, b1, At(text + i + 1), version)
      else VersionFields(b1, text, line, NonBlankFrom(line, i + 1))
  }

  /** Second stage: the target starts at offset `j` of the line; the next
      blank ends it, and after the blanks comes the version. */
  function VersionFields(b: seq<char>, text: nat, line: string, j: nat): (f: LineFields)
    requires j <= |line| && text + |line| <= |b|
    ensures f.ok ==> f.url.At? && f.version.At?
    ensures |f.buf| == |b|
  {
    var v := BlankFrom(line, j);
    if v == |line| then LineFields(false, b, At(text + j), Null)
    else
      var w := NonBlankFrom(line, v + 1);
      var b2 := b[text + v := NUL];
      if !CaseEqAt(line, w, |line|, "HTTP/1.1") then LineFields(false, b2, At(text + j), At(text + w))
      else
        var (ok, url) := CheckTarget(line, j, v, text);
        LineFields(ok, b2, url, At(text + w))
  }

  /** Last stage: the target is the C string `s[lo..hi)`, at offset `base +
      lo` of the buffer.  `http://` (any case, and only if the target is at
      least that long) is skipped together with everything up to the next
      `/`; what remains must start with `/`.  An accepted target leaves the
      URL pointer on a `/` inside it. */
  function CheckTarget(s: string, lo: nat, hi: nat, base: nat): (r: (bool, Ptr))
    requires lo <= hi <= |s|
    ensures r.0 ==> r.1.At? && base + lo <= r.1.off < base + hi && s[r.1.off - base] == '/'
  {
    if hi - lo >= 7 && CaseEqAt(s, lo, lo + 7, "http://") then
      var q := CharFrom(s, lo + 7, hi, '/');
      if q == hi then (false, Null) else (true, At(base + q))
    else if lo < hi && s[lo] == '/' then
      (true, At(base + lo))
    else
      (false, At(base + lo))
  }

  /** A request target the server accepts: an absolute path, or `http://`
      (any case) followed by an authority and an absolute path. */
  predicate TargetOk(t: string) {
    (|t| > 0 && t[0] == '/') || (CasePrefix(t, "http://") && '/' in t[7..])
  }

  /** The target check accepts exactly the targets `TargetOk` describes;
      an absolute path is kept whole. */
  lemma TargetVerdict(s: string, lo: nat, hi: nat, target: string, base: nat)
    requires Occurs(s, lo, target) && hi == lo + |target|
    ensures CheckTarget(s, lo, hi, base).0 <==> TargetOk(target)
    ensures |target| > 0 && target[0] == '/' ==> CheckTarget(s, lo, hi, base) == (true, At(base + lo))
  {
    if |target| >= 7 {
      assert Occurs(s, lo, target[..7]);
      CaseEqAtOccurs(s, lo, lo + 7, target[..7], "http://");
      if CasePrefix(target, "http://") {
        assert ToLower(target[0]) == ToLower(target[..7][0]) == 'h';
        var q := CharFrom(s, lo + 7, hi, '/');
        if q < hi {
          assert target[7..][q - lo - 7] == s[q];
        }
      }
    }
  }

  /** Absolute form: `http://`, an authority without `/`, then a path
      starting with `/`; the URL pointer is left on the path. */
  lemma AbsoluteTarget(s: string, lo: nat, scheme: string, authority: string, path: string, base: nat)
    requires Occurs(s, lo, scheme + authority + path)
    requires CaseEq(scheme, "http://") && '/' !in authority && |path| > 0 && path[0] == '/'
    ensures CheckTarget(s, lo, lo + |scheme + authority + path|, base)
            == (true, At(base + lo + |scheme| + |authority|))
  {
    var target := scheme + authority + path;
    var q := lo + 7 + |authority|;
    assert Occurs(s, lo, target[..7]) && target[..7] == scheme;
    CaseEqAtOccurs(s, lo, lo + 7, scheme, "http://");
    forall k | lo + 7 <= k < q
      ensures s[k] != '/'
    {
      assert s[k] == target[k - lo] == authority[k - lo - 7];
    }
    assert s[q] == target[q - lo] == path[0];
    CharFromIs(s, lo + 7, lo + |target|, '/', q);
  }

  /** Where the C code's pointers land on a line of the form
      `m s1 target s2 ver`, `s1` and `s2` being maximal runs of blanks. */
  lemma SplitPoints(line: string, m: string, s1: string, target: string, s2: string, ver: string)
    requires line == m + (s1 + (target + (s2 + ver)))
    requires Token(m) && Blanks(s1) && Token(target) && |target| > 0 && Blanks(s2) && StartsNonBlank(ver)
    ensures var j := |m| + |s1|;
            var v := j + |target|;
            && BlankFrom(line, 0) == |m| && NonBlankFrom(line, |m| + 1) == j
            && BlankFrom(line, j) == v && NonBlankFrom(line, v + 1) == v + |s2|
            && Occurs(line, 0, m) && Occurs(line, j, target) && Occurs(line, v + |s2|, ver)
            && v + |s2| + |ver| == |line|
  {
    var j := |m| + |s1|;
    var v := j + |target|;
    var w := v + |s2|;
    assert Occurs(line, 0, m);
    assert Occurs(line, |m|, s1);
    assert Occurs(line, j, target);
    assert Occurs(line, v, s2);
    assert Occurs(line, w, ver);
    BlankFromIs(line, 0, |m|);
    assert line[j] == target[0];
    NonBlankFromIs(line, |m| + 1, j);
    assert line[v] == s2[0];
    BlankFromIs(line, j, v);
    if w < |line| {
      assert line[w] == ver[0];
    }
    NonBlankFromIs(line, v + 1, w);
  }

  /** Request line, both directions: for a line made of a method, blanks, a
      target, blanks and a version, the line is accepted exactly when the
      method is `GET`, the version `HTTP/1.1` (any case) and the target
      acceptable.  The version pointer then designates the version, and the
      URL pointer a suffix of the target that starts with `/`: the whole
      target when it is an absolute path. */
  lemma RequestLineVerdict(c: Conn, text: nat, m: string, s1: string, target: string,
                           s2: string, ver: string)
    requires c.state == RequestLine && text <= |c.readBuf|
    requires CStr(c.readBuf, text) == m + (s1 + (target + (s2 + ver)))
    requires Token(m) && Blanks(s1) && Token(target) && |target| > 0 && Blanks(s2) && StartsNonBlank(ver)
    ensures var r := ParseRequestLine(c, text);
            r.code == NoRequest <==> CaseEq(m, "GET") && CaseEq(ver, "HTTP/1.1") && TargetOk(target)
    ensures var r := ParseRequestLine(c, text);
            var at := text + |m| + |s1|;
            r.code == NoRequest ==>
              && PtrText(r.conn.readBuf, r.conn.version) == ver
              && r.conn.url.At? && at <= r.conn.url.off < at + |target|
              && EndsWith(target, PtrText(r.conn.readBuf, r.conn.url))
              && r.conn.url.off + |PtrText(r.conn.readBuf, r.conn.url)| == at + |target|
              && PtrText(r.conn.readBuf, r.conn.url)[0] == '/'
    ensures var r := ParseRequestLine(c, text);
            r.code == NoRequest && target[0] == '/' ==> r.conn.url == At(text + |m| + |s1|)
  {
    FieldsVerdict(c.readBuf, text, c.version, m, s1, target, s2, ver);
  }

  lemma FieldsVerdict(b: seq<char>, text: nat, version: Ptr, m: string, s1: string, target: string,
                      s2: string, ver: string)
    requires text <= |b|
    requires CStr(b, text) == m + (s1 + (target + (s2 + ver)))
    requires Token(m) && Blanks(s1) && Token(target) && |target| > 0 && Blanks(s2) && StartsNonBlank(ver)
    ensures var f := RequestLineFields(b, text, version);
            f.ok <==> CaseEq(m, "GET") && CaseEq(ver, "HTTP/1.1") && TargetOk(target)
    ensures var f := RequestLineFields(b, text, version);
            var at := text + |m| + |s1|;
            f.ok ==>
              && PtrText(f.buf, f.version) == ver
              && f.url.At? && at <= f.url.off < at + |target|
              && EndsWith(target, PtrText(f.buf, f.url))
              && f.url.off + |PtrText(f.buf, f.url)| == at + |target|
              && PtrText(f.buf, f.url)[0] == '/'
    ensures var f := RequestLineFields(b, text, version);
            f.ok && target[0] == '/' ==> f.url == At(text + |m| + |s1|)
  {
    SplitPoints(CStr(b, text), m, s1, target, s2, ver);
    var i, j := |m|, |m| + |s1|;
    var v := j + |target|;
    var w := v + |s2|;
    OffsetsVerdict(b, text, version, i, j, v, w, m, target, ver);
    OffsetsVersion(b, text, version, i, j, v, w, ver);
    OffsetsUrl(b, text, version, i, j, v, w, text + |m| + |s1|, target);
  }

  /** The verdict at the offsets `SplitPoints` computes: `m` ends at `i`,
      the target occupies `[j, v)`, the version `[w, |line|)`. */
  lemma OffsetsVerdict(b: seq<char>, text: nat, version: Ptr, i: nat, j: nat, v: nat, w: nat,
                       m: string, target: string, ver: string)
    requires text <= |b|
    requires var line := CStr(b, text);
             && BlankFrom(line, 0) == i < |line| && NonBlankFrom(line, i + 1) == j
             && BlankFrom(line, j) == v < |line| && NonBlankFrom(line, v + 1) == w
             && Occurs(line, 0, m) && i == |m| && Occurs(line, j, target) && v == j + |target|
             && Occurs(line, w, ver) && w + |ver| == |line|
    ensures RequestLineFields(b, text, version).ok
            <==> CaseEq(m, "GET") && CaseEq(ver, "HTTP/1.1") && TargetOk(target)
  {
    var line := CStr(b, text);
    FieldsAt(b, text, version, i, j, v, w);
    CaseEqAtOccurs(line, 0, i, m, "GET");
    CaseEqAtOccurs(line, w, |line|, ver, "HTTP/1.1");
    TargetVerdict(line, j, v, target, text);
  }

  /** The version pointer at the same offsets. */
  lemma OffsetsVersion(b: seq<char>, text: nat, version: Ptr, i: nat, j: nat, v: nat, w: nat,
                       ver: string)
    requires text <= |b|
    requires var line := CStr(b, text);
             && BlankFrom(line, 0) == i < |line| && NonBlankFrom(line, i + 1) == j
             && BlankFrom(line, j) == v < |line| && NonBlankFrom(line, v + 1) == w
             && Occurs(line, w, ver) && w + |ver| == |line|
    ensures var f := RequestLineFields(b, text, version);
            f.ok ==> PtrText(f.buf, f.version) == ver
  {
    FieldsAt(b, text, version, i, j, v, w);
    VersionText(RequestLineFields(b, text, version), b, text, i, v, w, ver);
  }

  /** Whatever the outcome, an accepted line whose buffer and version
      pointer are those of the two NUL writes designates the version. */
  lemma VersionText(f: LineFields, b: seq<char>, text: nat, i: nat, v: nat, w: nat, ver: string)
    requires text <= |b|
    requires var line := CStr(b, text);
             i < v < w && Occurs(line, w, ver) && w + |ver| == |line|
    requires f.ok ==> f.buf == b[text + i := NUL][text + v := NUL] && f.version == At(text + w)
    ensures f.ok ==> PtrText(f.buf, f.version) == ver
  {
    if f.ok {
      CutVersion(b, text, CStr(b, text), i, v, w, ver);
    }
  }

  /** The URL pointer at the same offsets, the target starting at buffer
      offset `at`. */
  lemma OffsetsUrl(b: seq<char>, text: nat, version: Ptr, i: nat, j: nat, v: nat, w: nat,
                   at: nat, target: string)
    requires text <= |b| && at == text + j
    requires var line := CStr(b, text);
             && BlankFrom(line, 0) == i < |line| && NonBlankFrom(line, i + 1) == j
             && BlankFrom(line, j) == v < |line| && NonBlankFrom(line, v + 1) == w
             && Occurs(line, j, target) && v == j + |target|
    ensures var f := RequestLineFields(b, text, version);
            f.ok ==>
              && f.url.At? && at <= f.url.off < at + |target|
              && EndsWith(target, PtrText(f.buf, f.url))
              && f.url.off + |PtrText(f.buf, f.url)| == at + |target|
              && PtrText(f.buf, f.url)[0] == '/'
    ensures var f := RequestLineFields(b, text, version);
            f.ok && target[0] == '/' ==> f.url == At(at)
  {
    var line := CStr(b, text);
    FieldsAt(b, text, version, i, j, v, w);
    TargetVerdict(line, j, v, target, text);
    var f := RequestLineFields(b, text, version);
    if f.ok {
      CutTarget(b, text, line, i, j, v, at, target, f.url.off);
    }
  }

  /** The request line in terms of the offsets the C code computes: `i`
      ends the method, `j` starts the target, `v` ends it and `w` starts
      the version. */
  lemma FieldsAt(b: seq<char>, text: nat, version: Ptr, i: nat, j: nat, v: nat, w: nat)
    requires text <= |b|
    requires var line := CStr(b, text);
             && BlankFrom(line, 0) == i < |line| && NonBlankFrom(line, i + 1) == j
             && BlankFrom(line, j) == v < |line| && NonBlankFrom(line, v + 1) == w
    ensures var line, f := CStr(b, text), RequestLineFields(b, text, version);
            f.ok == (CaseEqAt(line, 0, i, "GET") && CaseEqAt(line, w, |line|, "HTTP/1.1")
                     && CheckTarget(line, j, v, text).0)
    ensures var line, f := CStr(b, text), RequestLineFields(b, text, version);
            f.ok ==> f.buf == b[text + i := NUL][text + v := NUL] && f.version == At(text + w)
                     && f.url == CheckTarget(line, j, v, text).1
  {
    var line := CStr(b, text);
    MethodStage(b, text, version, i, j);
    if CaseEqAt(line, 0, i, "GET") {
      VersionStage(b[text + i := NUL], text, line, j, v, w);
    }
  }

  /** The first stage hands over to the second exactly when the method is `GET`. */
  lemma MethodStage(b: seq<char>, text: nat, version: Ptr, i: nat, j: nat)
    requires text <= |b|
    requires BlankFrom(CStr(b, text), 0) == i < |CStr(b, text)|
    requires NonBlankFrom(CStr(b, text), i + 1) == j
    ensures RequestLineFields(b, text, version) ==
              if CaseEqAt(CStr(b, text), 0, i, "GET")
              then VersionFields(b[text + i := NUL], text, CStr(b, text), j)
              else LineFields(false, b[text + i := NUL], At(text + i + 1), version)
  {
  }

  /** The second stage checks the version, then the target. */
  lemma VersionStage(b: seq<char>, text: nat, line: string, j: nat, v: nat, w: nat)
    requires j <= |line| && text + |line| <= |b|
    requires BlankFrom(line, j) == v < |line| && NonBlankFrom(line, v + 1) == w
    ensures VersionFields(b, text, line, j) ==
              if CaseEqAt(line, w, |line|, "HTTP/1.1")
              then LineFields(CheckTarget(line, j, v, text).0, b[text + v := NUL],
                              CheckTarget(line, j, v, text).1, At(text + w))
              else LineFields(false, b[text + v := NUL], At(text + j), At(text + w))
  {
  }

  /** After the two NUL writes, the version is a C string of its own. */
  lemma CutVersion(b: seq<char>, text: nat, line: string, i: nat, v: nat, w: nat, ver: string)
    requires text <= |b| && line == CStr(b, text)
    requires i < v < w && w + |ver| == |line| && Occurs(line, w, ver)
    ensures CStr(b[text + i := NUL][text + v := NUL], text + w) == ver
  {
    var b2 := b[text + i := NUL][text + v := NUL];
    forall k | 0 <= k < |ver|
      ensures ver[k] == b2[text + w + k]
    {
      assert line[w + k] == b[text + w + k];
    }
    CStrUnique(b2, text + w, ver);
  }

  /** After the two NUL writes, every suffix of the target that starts at
      buffer offset `u` is a C string of its own; the target occupies
      `[j, v)` of the line, which starts at offset `at` of the buffer. */
  lemma CutTarget(b: seq<char>, text: nat, line: string, i: nat, j: nat, v: nat, at: nat,
                  target: string, u: nat)
    requires text <= |b| && line == CStr(b, text) && at == text + j
    requires i < j && v == j + |target| < |line| && Occurs(line, j, target)
    requires at <= u < at + |target|
    ensures var t := CStr(b[text + i := NUL][text + v := NUL], u);
            EndsWith(target, t) && u + |t| == at + |target|
  {
    var b2 := b[text + i := NUL][text + v := NUL];
    var t := target[u - at..];
    forall k | 0 <= k < |t|
      ensures t[k] == b2[u + k]
    {
      assert line[u - text + k] == b[u + k];
    }
    CStrUnique(b2, u, t);
  }

  /** The absolute form on a whole line: the URL pointer designates the
      path that follows the authority. */
  lemma RequestLineAbsolute(c: Conn, text: nat, m: string, s1: string, scheme: string,
                            authority: string, path: string, s2: string, ver: string)
    requires c.state == RequestLine && text <= |c.readBuf|
    requires CStr(c.readBuf, text) == m + (s1 + ((scheme + authority + path) + (s2 + ver)))
    requires Token(m) && Blanks(s1) && Token(scheme + authority + path) && Blanks(s2) && StartsNonBlank(ver)
    requires CaseEq(m, "GET") && CaseEq(ver, "HTTP/1.1")
    requires CaseEq(scheme, "http://") && '/' !in authority && |path| > 0 && path[0] == '/'
    ensures var r := ParseRequestLine(c, text);
            r.code == NoRequest && PtrText(r.conn.readBuf, r.conn.url) == path
  {
    var b, target := c.readBuf, scheme + authority + path;
    SplitPoints(CStr(b, text), m, s1, target, s2, ver);
    var i, j := |m|, |m| + |s1|;
    var v := j + |target|;
    AbsoluteOk(scheme, authority, path);
    OffsetsAbsolute(b, text, c.version, i, j, v, v + |s2|, scheme, authority, path);
    RequestLineVerdict(c, text, m, s1, target, s2, ver);
    var r := ParseRequestLine(c, text);
    SameSuffix(target, PtrText(r.conn.readBuf, r.conn.url), path);
  }

  /** Two suffixes of the same length are equal. */
  lemma SameSuffix(t: string, x: string, y: string)
    requires EndsWith(t, x) && EndsWith(t, y) && |x| == |y|
    ensures x == y
  {
  }

  /** The absolute form at the offsets `SplitPoints` computes. */
  lemma OffsetsAbsolute(b: seq<char>, text: nat, version: Ptr, i: nat, j: nat, v: nat, w: nat,
                        scheme: string, authority: string, path: string)
    requires text <= |b|
    requires var line := CStr(b, text);
             && BlankFrom(line, 0) == i < |line| && NonBlankFrom(line, i + 1) == j
             && BlankFrom(line, j) == v < |line| && NonBlankFrom(line, v + 1) == w
             && Occurs(line, j, scheme + authority + path) && v == j + |scheme + authority + path|
    requires CaseEq(scheme, "http://") && '/' !in authority && |path| > 0 && path[0] == '/'
    ensures var f := RequestLineFields(b, text, version);
            f.ok ==> f.url == At(text + j + |scheme| + |authority|)
  {
    var line := CStr(b, text);
    FieldsAt(b, text, version, i, j, v, w);
    AbsoluteTarget(line, j, scheme, authority, path, text);
  }

  /** An absolute-form target is acceptable, and ends with its path. */
  lemma AbsoluteOk(scheme: string, authority: string, path: string)
    requires CaseEq(scheme, "http://") && '/' !in authority && |path| > 0 && path[0] == '/'
    ensures TargetOk(scheme + authority + path) && EndsWith(scheme + authority + path, path)
  {
    var target := scheme + authority + path;
    assert target[..7] == scheme;
    assert target[7..][|authority|] == '/';
  }

  /** Rejections the decomposition above does not cover: a line without a
      blank, and a line whose target is not followed by a blank. */
  lemma RequestLineTooShort(c: Conn, text: nat, m: string, s1: string, rest: string)
    requires c.state == RequestLine && text <= |c.readBuf|
    requires Token(CStr(c.readBuf, text)) ||
             (CStr(c.readBuf, text) == m + (s1 + rest) && Token(m) && Blanks(s1) && Token(rest))
    ensures ParseRequestLine(c, text).code == BadRequest
  {
    var b, line := c.readBuf, CStr(c.readBuf, text);
    if Token(line) {
      BlankFromIs(line, 0, |line|);
    } else {
      assert Occurs(line, 0, m) && Occurs(line, |m|, s1) && Occurs(line, |m| + |s1|, rest);
      BlankFromIs(line, 0, |m|);
      var j := NonBlankFrom(line, |m| + 1);
      forall k | |m| + |s1| <= k < |line|
        ensures !IsBlank(line[k])
      {
        assert line[k] == rest[k - |m| - |s1|];
      }
      BlankFromIs(line, j, |line|);
    }
  }

  /** `parse_request_line` writes nothing but NULs, and only inside the line. */
  lemma RequestLineEdits(c: Conn, text: nat)
    requires c.state == RequestLine && text <= |c.readBuf|
    ensures LineEdit(c.readBuf, ParseRequestLine(c, text).conn.readBuf,
                     text, text + |CStr(c.readBuf, text)|)
  {
  }

  // ---------------------------------------------------------------------------
  // Header lines

  /** `strncasecmp(line, name, |name|) == 0` */
  predicate HasPrefix(line: string, name: string) {
    |line| >= |name| && CaseEqAt(line, 0, |name|, name)
  }

  /** `parse_headers`.  An empty line ends the header section: with a body
      announced (a non-zero Content-Length) the state moves to CONTENT and
      the outcome is NO_REQUEST, otherwise the request is complete
      (GET_REQUEST).  A non-empty line is recognised by its name, in any
      case, and after the blanks that follow the name:
      `Connection:` sets keep-alive when the value is `keep-alive` (any case),
      `Content-Length:` sets the body length to `atol` of the value, and
      `Host:` points the host at the value; any other line is ignored.
      A non-empty line always yields NO_REQUEST, except that the corrected
      reading rejects a negative Content-Length (BAD_REQUEST).  Nothing but
      the state, keep-alive, body length and host changes. */
  function ParseHeaders(c: Conn, text: nat, variant: Variant): (r: Step)
    requires c.state == Header
    ensures r.code in {NoRequest, GetRequest, BadRequest}
    ensures r.code == GetRequest ==> CStr(c.readBuf, text) == [] && c.contentLength == 0
    ensures r.code == BadRequest ==> variant == Corrected
    ensures r.conn == c.(state := r.conn.state, linger := r.conn.linger,
                         contentLength := r.conn.contentLength, host := r.conn.host)
    ensures r.conn.state != RequestLine
    ensures r.conn.state == Content ==> CStr(c.readBuf, text) == [] && r.code == NoRequest
                                         && r.conn.contentLength != 0
    ensures variant == Corrected && c.contentLength >= 0 ==> r.conn.contentLength >= 0
  {
    var line := CStr(c.readBuf, text);
    if |line| == 0 then
      if c.contentLength != 0 then Step(NoRequest, c.(state := Content))
      else Step(GetRequest, c)
    else if HasPrefix(line, "Connection:") then
      var p := NonBlankFrom(line, 11);
      if CaseEqAt(line, p, |line|, "keep-alive") then Step(NoRequest, c.(linger := true))
      else Step(NoRequest, c)
    else if HasPrefix(line, "Content-Length:") then
      var n := Atol(line[NonBlankFrom(line, 15)..]);
      if variant == Corrected && n < 0 then Step(BadRequest, c)
      else Step(NoRequest, c.(contentLength := n))
    else if HasPrefix(line, "Host:") then
      Step(NoRequest, c.(host := At(text + NonBlankFrom(line, 5))))
    else
      Step(NoRequest, c)
  }

  /** A header line `name blanks value`, blanks possibly none. */
  predicate HeaderLine(line: string, name: string, sp: string, value: string) {
    && line == name + (sp + value)
    && (forall i :: 0 <= i < |sp| ==> IsBlank(sp[i]))
    && StartsNonBlank(value)
  }

  /** Where the value of a header line starts. */
  lemma ValueStart(line: string, name: string, sp: string, value: string)
    requires HeaderLine(line, name, sp, value)
    ensures NonBlankFrom(line, |name|) == |name| + |sp|
    ensures Occurs(line, 0, name) && Occurs(line, |name| + |sp|, value)
    ensures line[|name| + |sp|..] == value
  {
    assert Occurs(line, |name|, sp);
    if |value| > 0 {
      assert line[|name| + |sp|] == value[0];
    }
    NonBlankFromIs(line, |name|, |name| + |sp|);
  }

  /** The three header names are told apart by their first characters. */
  lemma NamesDiffer(line: string)
    ensures HasPrefix(line, "Content-Length:") ==> !HasPrefix(line, "Connection:")
    ensures HasPrefix(line, "Host:") ==> !HasPrefix(line, "Connection:") && !HasPrefix(line, "Content-Length:")
  {
    if HasPrefix(line, "Content-Length:") && HasPrefix(line, "Connection:") {
      HasPrefixAt(line, "Content-Length:", 3);
      HasPrefixAt(line, "Connection:", 3);
    }
    if HasPrefix(line, "Host:") {
      HasPrefixAt(line, "Host:", 0);
      assert ToLower("Connection:"[0]) == 'c';
      assert ToLower("Content-Length:"[0]) == 'c';
    }
  }

  lemma HasPrefixAt(line: string, name: string, k: nat)
    requires HasPrefix(line, name) && k < |name|
    ensures ToLower(line[k]) == ToLower(name[k])
  {
    assert ToLower(line[0 + k]) == ToLower(name[k]);
  }

  /** `Connection:` header: keep-alive is set exactly when the value is
      `keep-alive`, and stays set otherwise. */
  lemma ConnectionHeader(c: Conn, text: nat, variant: Variant, name: string, sp: string, value: string)
    requires c.state == Header
    requires HeaderLine(CStr(c.readBuf, text), name, sp, value) && CaseEq(name, "Connection:")
    ensures var r := ParseHeaders(c, text, variant);
            r == Step(NoRequest, c.(linger := c.linger || CaseEq(value, "keep-alive")))
  {
    var line := CStr(c.readBuf, text);
    ValueStart(line, name, sp, value);
    CaseEqAtOccurs(line, 0, |name|, name, "Connection:");
    CaseEqAtOccurs(line, |name| + |sp|, |line|, value, "keep-alive");
  }

  /** `Content-Length:` header: a value printed by `%d` is read back as the
      body length; the corrected reading rejects a negative one. */
  lemma ContentLengthHeader(c: Conn, text: nat, variant: Variant, name: string, sp: string, n: int)
    requires c.state == Header
    requires HeaderLine(CStr(c.readBuf, text), name, sp, FormatInt(n)) && CaseEq(name, "Content-Length:")
    ensures var r := ParseHeaders(c, text, variant);
            if variant == Corrected && n < 0 then r == Step(BadRequest, c)
            else r == Step(NoRequest, c.(contentLength := n))
  {
    var line := CStr(c.readBuf, text);
    ValueStart(line, name, sp, FormatInt(n));
    CaseEqAtOccurs(line, 0, |name|, name, "Content-Length:");
    NamesDiffer(line);
    AtolFormatInt(n);
  }

  /** `Host:` header: the host pointer designates the value. */
  lemma HostHeader(c: Conn, text: nat, variant: Variant, name: string, sp: string, value: string)
    requires c.state == Header && text <= |c.readBuf|
    requires HeaderLine(CStr(c.readBuf, text), name, sp, value) && CaseEq(name, "Host:")
    ensures var r := ParseHeaders(c, text, variant);
            r.code == NoRequest && r.conn == c.(host := r.conn.host)
            && PtrText(r.conn.readBuf, r.conn.host) == value
  {
    var line := CStr(c.readBuf, text);
    ValueStart(line, name, sp, value);
    CaseEqAtOccurs(line, 0, |name|, name, "Host:");
    NamesDiffer(line);
    CStrSuffix(c.readBuf, text, |name| + |sp|);
  }

  /** Any other non-empty line changes nothing. */
  lemma OtherHeader(c: Conn, text: nat, variant: Variant)
    requires c.state == Header
    requires var line := CStr(c.readBuf, text);
             |line| > 0 && !HasPrefix(line, "Connection:")
             && !HasPrefix(line, "Content-Length:") && !HasPrefix(line, "Host:")
    ensures ParseHeaders(c, text, variant) == Step(NoRequest, c)
  {
  }

  /** The empty line: GET_REQUEST exactly when no body is announced;
      otherwise the parser moves on to the body. */
  lemma EndOfHeaders(c: Conn, text: nat, variant: Variant)
    requires c.state == Header && CStr(c.readBuf, text) == []
    ensures var r := ParseHeaders(c, text, variant);
            (r.code == GetRequest <==> c.contentLength == 0)
            && (r.code != GetRequest ==> r == Step(NoRequest, c.(state := Content)))
  {
  }

  // ---------------------------------------------------------------------------
  // Body

  /** `parse_content`: the body is complete once `contentLength` bytes have
      been received past `checkedIdx`; the byte after it (at `text +
      contentLength`) is then set to NUL and the outcome is GET_REQUEST.
      Otherwise nothing changes and the outcome is NO_REQUEST.  A write
      outside the buffer (a negative length reaching before it, or a body
      ending exactly at its end) is undefined in C++ and not modelled. */
  function ParseContent(c: Conn, text: nat): (r: Step)
    ensures r.code == GetRequest <==> c.readIdx >= c.contentLength + c.checkedIdx
    ensures r.code == NoRequest <==> c.readIdx < c.contentLength + c.checkedIdx
    ensures r.conn == c.(readBuf := r.conn.readBuf)
    ensures |r.conn.readBuf| == |c.readBuf|
    ensures forall k :: 0 <= k < |c.readBuf| && k != text + c.contentLength
                        ==> r.conn.readBuf[k] == c.readBuf[k]
  {
    if c.readIdx >= c.contentLength + c.checkedIdx then
      var z := text + c.contentLength;
      if 0 <= z < |c.readBuf| then Step(GetRequest, c.(readBuf := c.readBuf[z := NUL]))
      else Step(GetRequest, c)
    else
      Step(NoRequest, c)
  }

  // ---------------------------------------------------------------------------
  // Bytes that arrive later

  /** A handler looks only at its line, which the scanner has NUL-terminated
      below `readIdx`: bytes that arrive afterwards change neither the
      verdict nor the edits, they only sit in the buffer.  For the request
      line, that is the line's fields, ... */
  lemma RequestLineDeliver(c: Conn, text: nat, y: seq<char>)
    requires c.state == RequestLine && |c.readBuf| == READ_BUFFER_SIZE
    requires c.readIdx + |y| <= READ_BUFFER_SIZE
    requires text + |CStr(c.readBuf, text)| < c.readIdx
    ensures var r := ParseRequestLine(c, text);
            ParseRequestLine(Deliver(c, y), text) == Step(r.code, Deliver(r.conn, y))
  {
    FieldsFill(c.readBuf, text, c.version, c.readIdx, y);
  }

  lemma FieldsFill(b: seq<char>, text: nat, version: Ptr, at: nat, y: seq<char>)
    requires text + |CStr(b, text)| < at && at + |y| <= |b|
    ensures var f := RequestLineFields(b, text, version);
            RequestLineFields(Fill(b, at, y), text, version) == f.(buf := Fill(f.buf, at, y))
  {
    var line := CStr(b, text);
    CStrAgree(b, Fill(b, at, y), text, text + |line|);
    if BlankFrom(line, 0) < |line| {
      MethodFill(b, text, version, at, y);
    }
  }

  /** The line has a blank: the method is cut off and checked. */
  lemma MethodFill(b: seq<char>, text: nat, version: Ptr, at: nat, y: seq<char>)
    requires text + |CStr(b, text)| < at && at + |y| <= |b|
    requires CStr(Fill(b, at, y), text) == CStr(b, text)
    requires BlankFrom(CStr(b, text), 0) < |CStr(b, text)|
    ensures var f := RequestLineFields(b, text, version);
            RequestLineFields(Fill(b, at, y), text, version) == f.(buf := Fill(f.buf, at, y))
  {
    var line := CStr(b, text);
    var i := BlankFrom(line, 0);
    FillWriteBelow(b, at, y, text + i, NUL);
    var b1 := b[text + i := NUL];
    var b' := Fill(b, at, y);
    assert b'[text + i := NUL] == Fill(b1, at, y);
    if CaseEqAt(line, 0, i, "GET") {
      var j := NonBlankFrom(line, i + 1);
      VersionFieldsFill(b1, text, line, j, at, y);
      assert RequestLineFields(b, text, version) == VersionFields(b1, text, line, j);
      assert RequestLineFields(b', text, version) == VersionFields(Fill(b1, at, y), text, line, j);
    } else {
      assert RequestLineFields(b', text, version) == LineFields(false, Fill(b1, at, y), At(text + i + 1), version);
    }
  }

  lemma VersionFieldsFill(b: seq<char>, text: nat, line: string, j: nat, at: nat, y: seq<char>)
    requires j <= |line| && text + |line| < at && at + |y| <= |b|
    ensures var f := VersionFields(b, text, line, j);
            VersionFields(Fill(b, at, y), text, line, j) == f.(buf := Fill(f.buf, at, y))
  {
    var v := BlankFrom(line, j);
    if v < |line| {
      FillWriteBelow(b, at, y, text + v, NUL);
    }
  }

  /** ... and for a header line, what the line sets. */
  lemma HeadersDeliver(c: Conn, text: nat, variant: Variant, y: seq<char>)
    requires c.state == Header && |c.readBuf| == READ_BUFFER_SIZE
    requires c.readIdx + |y| <= READ_BUFFER_SIZE
    requires text + |CStr(c.readBuf, text)| < c.readIdx
    ensures var r := ParseHeaders(c, text, variant);
            ParseHeaders(Deliver(c, y), text, variant) == Step(r.code, Deliver(r.conn, y))
  {
    var d := Deliver(c, y);
    CStrAgree(c.readBuf, d.readBuf, text, text + |CStr(c.readBuf, text)|);
    HeadersSameLine(c, d, text, variant);
  }

  /** `parse_headers` depends on the buffer only through the line. */
  lemma HeadersSameLine(c: Conn, e: Conn, text: nat, variant: Variant)
    requires c.state == Header && e == c.(readBuf := e.readBuf, readIdx := e.readIdx)
    requires CStr(e.readBuf, text) == CStr(c.readBuf, text)
    ensures var r := ParseHeaders(c, text, variant);
            ParseHeaders(e, text, variant) == Step(r.code, r.conn.(readBuf := e.readBuf, readIdx := e.readIdx))
  {
    var line := CStr(c.readBuf, text);
    if |line| == 0 {
    } else if HasPrefix(line, "Connection:") {
    } else if HasPrefix(line, "Content-Length:") {
    } else if HasPrefix(line, "Host:") {
    } else {
    }
  }
}


=== FILE: response.dfy ===
/** The response side: `add_response` and the helpers built on it append
    formatted text to the write buffer; `process_write` composes the
    response for the outcome of `process_read` and describes what to send
    with one or two `iovec` entries; `process` ties reading and writing
    together. */
module Response {
  import opened CLib
  import opened Connection
  import opened Master

  const OK_200_TITLE: string := "OK"
  const ERROR_400_TITLE: string := "Bad Request"
  const ERROR_400_FORM: string := "Your request has bad syntax or is inherently impossible to satisfy.\n"
  const ERROR_403_TITLE: string := "Forbidden"
  const ERROR_403_FORM: string := "You do not have permission to get file from this server.\n"
  const ERROR_404_TITLE: string := "Not Found"
  const ERROR_404_FORM: string := "The requested file was not found on this server.\n"
  const ERROR_500_TITLE: string := "Internal Error"
  const ERROR_500_FORM: string := "There was an unusual problem serving the requested file.\n"
  /** The body sent for an empty file. */
  const EMPTY_PAGE: string := "<html><body></body></html>"

  /** The bytes queued so far. */
  function Queued(c: Conn): seq<char>
    requires c.writeIdx <= |c.writeBuf|
  {
    c.writeBuf[..c.writeIdx]
  }

  /** `add_response`: `vsnprintf` into the rest of the buffer, bounded so
      that one byte always stays free.  It writes as much of `s` as fits
      before that bound, then a NUL, and succeeds (advancing the write
      index) only if all of `s` fitted; a full buffer fails at once. */
  function AddResponse(c: Conn, s: string): (r: (bool, Conn))
    requires |c.writeBuf| == WRITE_BUFFER_SIZE && c.writeIdx <= WRITE_BUFFER_SIZE
    ensures |r.1.writeBuf| == WRITE_BUFFER_SIZE && r.1.writeIdx <= WRITE_BUFFER_SIZE
    ensures r.0 <==> c.writeIdx + |s| < WRITE_BUFFER_SIZE - 1
    ensures r.0 ==> Queued(r.1) == Queued(c) + s && r.1.writeBuf[r.1.writeIdx] == NUL
    ensures !r.0 ==> Queued(r.1) == Queued(c)
    ensures r.1 == c.(writeBuf := r.1.writeBuf, writeIdx := r.1.writeIdx)
  {
    if c.writeIdx >= WRITE_BUFFER_SIZE then (false, c)
    else
      var size: nat := WRITE_BUFFER_SIZE - 1 - c.writeIdx;
      var b := if size == 0 then c.writeBuf
               else Fill(c.writeBuf, c.writeIdx, s[..Min(|s|, size - 1)] + [NUL]);
      assert b[..c.writeIdx] == c.writeBuf[..c.writeIdx];
      if |s| >= size then (false, c.(writeBuf := b))
      else
        assert b[c.writeIdx..c.writeIdx + |s|] == s by {
          forall k | 0 <= k < |s|
            ensures b[c.writeIdx + k] == s[k]
          {
            assert b[c.writeIdx + k] == (s[..|s|] + [NUL])[k];
          }
        }
        assert b[..c.writeIdx + |s|] == b[..c.writeIdx] + b[c.writeIdx..c.writeIdx + |s|];
        (true, c.(writeBuf := b, writeIdx := c.writeIdx + |s|))
  }

  /** Two appends that both succeed queue the two texts one after the other. */
  lemma AddResponseTwice(c: Conn, s: string, t: string)
    requires |c.writeBuf| == WRITE_BUFFER_SIZE && c.writeIdx <= WRITE_BUFFER_SIZE
    requires c.writeIdx + |s| + |t| < WRITE_BUFFER_SIZE - 1
    ensures var r := AddResponse(c, s);
            var r' := AddResponse(r.1, t);
            r.0 && r'.0 && Queued(r'.1) == Queued(c) + (s + t)
  {
  }

  // ---------------------------------------------------------------------------
  // The lines of a response

  /** `"%s %d %s\r\n"` with `HTTP/1.1`, the status and its title. */
  function StatusLine(status: int, title: string): string {
    "HTTP/1.1 " + FormatInt(status) + " " + title + "\r\n"
  }

  function ContentLengthLine(n: int): string {
    "Content-Length: " + FormatInt(n) + "\r\n"
  }

  function LingerLine(linger: bool): string {
    "Connection: " + (if linger then "keep-alive" else "close") + "\r\n"
  }

  /** The header block `add_headers` appends: length, connection, blank line. */
  function HeaderBlock(n: int, linger: bool): string {
    ContentLengthLine(n) + LingerLine(linger) + "\r\n"
  }

  /** A client reading the status line back finds `HTTP/1.1 ` and then, read
      with `atol`, the status code; the title cannot change it. */
  lemma StatusCodeReadsBack(status: int, title: string)
    ensures StatusLine(status, title)[..9] == "HTTP/1.1 "
    ensures Atol(StatusLine(status, title)[9..]) == status
  {
    var s := StatusLine(status, title);
    assert s[9..] == FormatInt(status) + (" " + title + "\r\n");
    AtolPrefix(status, " " + title + "\r\n");
  }

  /** `add_status_line`: appends `StatusLine(status, title)`. */
  function AddStatusLine(c: Conn, status: int, title: string): (r: (bool, Conn))
    requires |c.writeBuf| == WRITE_BUFFER_SIZE && c.writeIdx <= WRITE_BUFFER_SIZE
    ensures |r.1.writeBuf| == WRITE_BUFFER_SIZE && r.1.writeIdx <= WRITE_BUFFER_SIZE
    ensures r.0 <==> c.writeIdx + |StatusLine(status, title)| < WRITE_BUFFER_SIZE - 1
    ensures r.0 ==> Queued(r.1) == Queued(c) + StatusLine(status, title)
    ensures !r.0 ==> Queued(r.1) == Queued(c)
    ensures r.1 == c.(writeBuf := r.1.writeBuf, writeIdx := r.1.writeIdx)
  {
    AddResponse(c, StatusLine(status, title))
  }

  /** `add_headers`: the three appends, whose outcomes it ignores; it is
      declared to return a `bool` but has no `return`, so it yields just the
      connection here (its callers ignore the value). */
  function AddHeaders(c: Conn, n: int): (r: Conn)
    requires |c.writeBuf| == WRITE_BUFFER_SIZE && c.writeIdx <= WRITE_BUFFER_SIZE
    ensures |r.writeBuf| == WRITE_BUFFER_SIZE && r.writeIdx <= WRITE_BUFFER_SIZE
    ensures r == c.(writeBuf := r.writeBuf, writeIdx := r.writeIdx)
  {
    var c1 := AddResponse(c, ContentLengthLine(n)).1;
    var c2 := AddResponse(c1, LingerLine(c.linger)).1;
    AddResponse(c2, "\r\n").1
  }

  /** When the header block fits, `add_headers` queues it. */
  lemma HeadersQueued(c: Conn, n: int)
    requires |c.writeBuf| == WRITE_BUFFER_SIZE && c.writeIdx <= WRITE_BUFFER_SIZE
    requires c.writeIdx + |HeaderBlock(n, c.linger)| < WRITE_BUFFER_SIZE - 1
    ensures Queued(AddHeaders(c, n)) == Queued(c) + HeaderBlock(n, c.linger)
  {
    AddResponseThrice(c, ContentLengthLine(n), LingerLine(c.linger), "\r\n");
  }

  /** `add_headers` as evidently intended: the same three appends, and the
      value says whether all three went in.  It does exactly when the whole
      header block fits. */
  function AddHeadersChecked(c: Conn, n: int): (r: (bool, Conn))
    requires |c.writeBuf| == WRITE_BUFFER_SIZE && c.writeIdx <= WRITE_BUFFER_SIZE
    ensures r.1 == AddHeaders(c, n)
    ensures r.0 <==> c.writeIdx + |HeaderBlock(n, c.linger)| < WRITE_BUFFER_SIZE - 1
  {
    var (ok1, c1) := AddResponse(c, ContentLengthLine(n));
    var (ok2, c2) := AddResponse(c1, LingerLine(c.linger));
    var (ok3, c3) := AddResponse(c2, "\r\n");
    assert ok1 ==> c1.writeIdx == c.writeIdx + |ContentLengthLine(n)|
      by { if ok1 { assert |Queued(c1)| == |Queued(c) + ContentLengthLine(n)|; } }
    assert ok2 ==> c2.writeIdx == c1.writeIdx + |LingerLine(c.linger)|
      by { if ok2 { assert |Queued(c2)| == |Queued(c1) + LingerLine(c.linger)|; } }
    assert !ok1 ==> c1.writeIdx == c.writeIdx
      by { if !ok1 { assert |Queued(c1)| == |Queued(c)|; } }
    assert !ok2 ==> c2.writeIdx == c1.writeIdx
      by { if !ok2 { assert |Queued(c2)| == |Queued(c1)|; } }
    (ok1 && ok2 && ok3, c3)
  }

  /** `add_headers` as written: the three appends happen, but control flows
      off the end of a function declared to return `bool`, so there is no
      value (`None`); in C++ that is undefined behaviour. */
  function AddHeadersAsWritten(c: Conn, n: int): (r: (Option<bool>, Conn))
    requires |c.writeBuf| == WRITE_BUFFER_SIZE && c.writeIdx <= WRITE_BUFFER_SIZE
  {
    (None, AddHeaders(c, n))
  }

  /** As written, `add_headers` yields no value where the intended one says
      whether the header block fit; the bytes queued are the same. */
  lemma HeadersValueMissing(c: Conn, n: int)
    requires |c.writeBuf| == WRITE_BUFFER_SIZE && c.writeIdx <= WRITE_BUFFER_SIZE
    ensures AddHeadersAsWritten(c, n).0 == None
    ensures AddHeadersChecked(c, n).0 <==> c.writeIdx + |HeaderBlock(n, c.linger)| < WRITE_BUFFER_SIZE - 1
    ensures AddHeadersAsWritten(c, n).1 == AddHeadersChecked(c, n).1
  {
  }

  /** Three appends that all fit queue the three texts in order. */
  lemma AddResponseThrice(c: Conn, x: string, y: string, z: string)
    requires |c.writeBuf| == WRITE_BUFFER_SIZE && c.writeIdx <= WRITE_BUFFER_SIZE
    requires c.writeIdx + |x + y + z| < WRITE_BUFFER_SIZE - 1
    ensures Queued(AddResponse(AddResponse(AddResponse(c, x).1, y).1, z).1) == Queued(c) + (x + y + z)
  {
    AddResponseTwice(c, x, y);
    var c2 := AddResponse(AddResponse(c, x).1, y).1;
    var q := Queued(c);
    assert q + (x + y) + z == q + (x + y + z);
  }

  /** `add_content`: appends the body text as it is. */
  function AddContent(c: Conn, content: string): (r: (bool, Conn))
    requires |c.writeBuf| == WRITE_BUFFER_SIZE && c.writeIdx <= WRITE_BUFFER_SIZE
    ensures |r.1.writeBuf| == WRITE_BUFFER_SIZE && r.1.writeIdx <= WRITE_BUFFER_SIZE
    ensures r.0 <==> c.writeIdx + |content| < WRITE_BUFFER_SIZE - 1
    ensures r.0 ==> Queued(r.1) == Queued(c) + content
    ensures !r.0 ==> Queued(r.1) == Queued(c)
    ensures r.1 == c.(writeBuf := r.1.writeBuf, writeIdx := r.1.writeIdx)
  {
    AddResponse(c, content)
  }

  // ---------------------------------------------------------------------------
  // `process_write`

  /** The conversion of `st_size` to the `int` parameter of `add_headers`:
      two's complement truncation to 32 bits. */
  function Int32(n: int): (r: int)
    ensures -0x8000_0000 <= r < 0x8000_0000
    ensures (r - n) % 0x1_0000_0000 == 0
    ensures -0x8000_0000 <= n < 0x8000_0000 ==> r == n
  {
    (n + 0x8000_0000) % 0x1_0000_0000 - 0x8000_0000
  }

  /** Status code, title and body of the four error responses. */
  predicate IsError(code: HttpCode) {
    code in {InternalError, BadRequest, NoResource, ForbiddenRequest}
  }

  function ErrorStatus(code: HttpCode): int
    requires IsError(code)
  {
    match code
    case InternalError => 500
    case BadRequest => 400
    case NoResource => 404
    case ForbiddenRequest => 403
  }

  function ErrorTitle(code: HttpCode): string
    requires IsError(code)
  {
    match code
    case InternalError => ERROR_500_TITLE
    case BadRequest => ERROR_400_TITLE
    case NoResource => ERROR_404_TITLE
    case ForbiddenRequest => ERROR_403_TITLE
  }

  function ErrorForm(code: HttpCode): string
    requires IsError(code)
  {
    match code
    case InternalError => ERROR_500_FORM
    case BadRequest => ERROR_400_FORM
    case NoResource => ERROR_404_FORM
    case ForbiddenRequest => ERROR_403_FORM
  }

  /** Closing a response held in the write buffer alone: one `iovec`. */
  function BufferOnly(c: Conn): (r: Conn)
    requires |c.iv| == 2
  {
    c.(iv := c.iv[0 := IoVec(WriteBuffer, c.writeIdx)], ivCount := 1)
  }

  /** A complete page: status line, headers announcing the length of the
      body, and the body. */
  function Page(status: int, title: string, body: string, linger: bool): string {
    StatusLine(status, title) + HeaderBlock(|body|, linger) + body
  }

  /** The common sequence of the error cases (and of the empty file):
      status line, headers for `body`, then `body`; only a `body` that does
      not fit fails, and success sends the write buffer alone. */
  function Respond(c: Conn, status: int, title: string, body: string): (r: (bool, Conn))
    requires WriteValid(c)
    ensures WriteValid(r.1) || !r.0
    ensures |r.1.writeBuf| == WRITE_BUFFER_SIZE && r.1.writeIdx <= WRITE_BUFFER_SIZE && |r.1.iv| == 2
    ensures r.1 == c.(writeBuf := r.1.writeBuf, writeIdx := r.1.writeIdx, iv := r.1.iv, ivCount := r.1.ivCount)
    ensures r.0 ==> r.1.ivCount == 1 && r.1.iv[0] == IoVec(WriteBuffer, r.1.writeIdx)
    ensures !r.0 ==> r.1.iv == c.iv && r.1.ivCount == c.ivCount
  {
    var c1 := AddStatusLine(c, status, title).1;
    var c2 := AddHeaders(c1, |body|);
    var (ok, c3) := AddContent(c2, body);
    if !ok then (false, c3) else (true, BufferOnly(c3))
  }

  /** The file case: status line, headers announcing `n`, and the file of
      `size` bytes after the write buffer. */
  function SendFile(c: Conn, n: int, size: nat): (r: (bool, Conn))
    requires WriteValid(c)
    ensures r.0 && |r.1.writeBuf| == WRITE_BUFFER_SIZE && r.1.writeIdx <= WRITE_BUFFER_SIZE
    ensures r.1 == c.(writeBuf := r.1.writeBuf, writeIdx := r.1.writeIdx, iv := r.1.iv, ivCount := r.1.ivCount)
    ensures r.1.ivCount == 2 && r.1.iv == [IoVec(WriteBuffer, r.1.writeIdx), IoVec(FileMapping, size)]
  {
    var c1 := AddStatusLine(c, 200, OK_200_TITLE).1;
    var c2 := AddHeaders(c1, n);
    (true, c2.(iv := [IoVec(WriteBuffer, c2.writeIdx), IoVec(FileMapping, size)], ivCount := 2))
  }

  /** The length `process_write` announces for a file of `size` bytes. */
  function AnnouncedLength(size: nat, variant: Variant): int {
    if variant == AsWritten then Int32(size) else size
  }

  /** `process_write`.  An error outcome gets its error page; a file gets
      status line and headers, and is sent after them (second `iovec`); an
      empty file gets a small page instead.  As written, the empty-file case
      falls through into `default` and fails, with the page queued and the
      `iovec`s untouched, and the length announced for a file is its size
      truncated to `int`.  NO_REQUEST and GET_REQUEST have no response, and
      no failure touches the `iovec`s. */
  function ProcessWrite(c: Conn, ret: HttpCode, variant: Variant): (r: (bool, Conn))
    requires WriteValid(c)
    ensures |r.1.writeBuf| == WRITE_BUFFER_SIZE && r.1.writeIdx <= WRITE_BUFFER_SIZE && |r.1.iv| == 2
    ensures r.1 == c.(writeBuf := r.1.writeBuf, writeIdx := r.1.writeIdx, iv := r.1.iv, ivCount := r.1.ivCount)
    ensures ret in {NoRequest, GetRequest} ==> !r.0
    ensures r.0 ==> r.1.iv[0] == IoVec(WriteBuffer, r.1.writeIdx)
    ensures r.0 ==> (r.1.ivCount == 2 <==> ret == FileRequest && c.fileStat.size != 0)
    ensures r.0 && r.1.ivCount == 2 ==> r.1.iv[1] == IoVec(FileMapping, c.fileStat.size)
    ensures r.0 ==> r.1.ivCount == 1 || r.1.ivCount == 2
    ensures !r.0 ==> r.1.iv == c.iv && r.1.ivCount == c.ivCount
  {
    if IsError(ret) then Respond(c, ErrorStatus(ret), ErrorTitle(ret), ErrorForm(ret))
    else if ret == FileRequest then
      var size := c.fileStat.size;
      if size != 0 then SendFile(c, AnnouncedLength(size, variant), size)
      else
        var r := Respond(c, 200, OK_200_TITLE, EMPTY_PAGE);
        if variant == AsWritten then (false, r.1.(iv := c.iv, ivCount := c.ivCount)) else r
    else
      (false, c)
  }

  // ---------------------------------------------------------------------------
  // What `process_write` queues

  /** The largest `off_t`: file sizes stay below it. */
  const MAX_OFF_T: nat := 0x7FFF_FFFF_FFFF_FFFF

  /** A page that fits is queued whole. */
  lemma RespondQueues(c: Conn, status: int, title: string, body: string)
    requires WriteValid(c)
    requires c.writeIdx + |Page(status, title, body, c.linger)| < WRITE_BUFFER_SIZE - 1
    ensures var r := Respond(c, status, title, body);
            r.0 && Queued(r.1) == Queued(c) + Page(status, title, body, c.linger)
  {
    var x, y := StatusLine(status, title), HeaderBlock(|body|, c.linger);
    var c1 := AddResponse(c, x).1;
    HeadersQueued(c1, |body|);
    var c2 := AddHeaders(c1, |body|);
    var q := Queued(c);
    assert Queued(c2) == q + x + y;
    var c3 := AddResponse(c2, body).1;
    assert Queued(c3) == q + x + y + body;
    assert Respond(c, status, title, body) == (true, BufferOnly(c3));
    assert Queued(BufferOnly(c3)) == Queued(c3);
    assert Page(status, title, body, c.linger) == x + y + body;
    AppendAssoc(q, x, y, body);
  }

  lemma AppendAssoc(q: string, x: string, y: string, z: string)
    ensures q + x + y + z == q + (x + y + z)
  {
  }

  /** A status line and headers that fit are queued whole. */
  lemma SendFileQueues(c: Conn, n: int, size: nat)
    requires WriteValid(c)
    requires c.writeIdx + |StatusLine(200, OK_200_TITLE) + HeaderBlock(n, c.linger)| < WRITE_BUFFER_SIZE - 1
    ensures Queued(SendFile(c, n, size).1) == Queued(c) + (StatusLine(200, OK_200_TITLE) + HeaderBlock(n, c.linger))
  {
    var x := StatusLine(200, OK_200_TITLE);
    AddResponseTwice(c, x, HeaderBlock(n, c.linger));
    HeadersQueued(AddResponse(c, x).1, n);
  }

  /** A page whose status has at most three digits, whose title and body
      are short, fits in a fresh buffer with room to spare. */
  lemma PageFits(status: nat, title: string, body: string, linger: bool)
    requires status < 1000 && |title| < 100 && |body| < 500
    ensures |Page(status, title, body, linger)| < 800
  {
    FormatNatLength(status, 3);
    FormatNatLength(|body|, 3);
  }

  /** An error outcome queues its whole error page when it fits (in a fresh
      buffer it does); it is sent from the write buffer alone. */
  lemma ErrorResponse(c: Conn, ret: HttpCode, variant: Variant)
    requires WriteValid(c) && c.writeIdx < 200 && IsError(ret)
    ensures var r := ProcessWrite(c, ret, variant);
            var page := Page(ErrorStatus(ret), ErrorTitle(ret), ErrorForm(ret), c.linger);
            && r.0 && Queued(r.1) == Queued(c) + page
            && r.1.ivCount == 1 && r.1.iv[0] == IoVec(WriteBuffer, r.1.writeIdx)
  {
    var status, title, form := ErrorStatus(ret), ErrorTitle(ret), ErrorForm(ret);
    assert |title| < 100 && |form| < 500;
    PageFits(status, title, form, c.linger);
    RespondQueues(c, status, title, form);
  }

  /** A non-empty file: status line and headers are queued, and the file
      follows them, all of it, as the second `iovec`. */
  lemma FileResponse(c: Conn, variant: Variant)
    requires WriteValid(c) && c.writeIdx < 200 && 0 < c.fileStat.size <= MAX_OFF_T
    ensures var r := ProcessWrite(c, FileRequest, variant);
            var head := StatusLine(200, OK_200_TITLE) + HeaderBlock(AnnouncedLength(c.fileStat.size, variant), c.linger);
            && r.0 && Queued(r.1) == Queued(c) + head
            && r.1.ivCount == 2
            && r.1.iv == [IoVec(WriteBuffer, r.1.writeIdx), IoVec(FileMapping, c.fileStat.size)]
  {
    var n := AnnouncedLength(c.fileStat.size, variant);
    assert ProcessWrite(c, FileRequest, variant) == SendFile(c, n, c.fileStat.size);
    HeadFits(n, c.linger);
    SendFileQueues(c, n, c.fileStat.size);
  }

  lemma HeadFits(n: int, linger: bool)
    requires -0x8000_0000_0000_0000 <= n <= MAX_OFF_T
    ensures |StatusLine(200, OK_200_TITLE) + HeaderBlock(n, linger)| < 300
  {
    FormatNatLength(200, 3);
    FormatInt64Length(n);
  }

  /** Corrected, a client reading the Content-Length header back gets the
      size of the file. */
  lemma LengthReadsBack(size: nat)
    ensures Atol(FormatInt(AnnouncedLength(size, Corrected))) == size
  {
    AtolFormatInt(size);
  }

  /** As written, the size passes through an `int`: a file of 2^31 bytes or
      more (below 2^32) is announced with a negative length, 2^32 short of
      its size, while all of it is sent. */
  lemma LengthWraps(size: nat)
    requires 0x8000_0000 <= size < 0x1_0000_0000
    ensures Atol(FormatInt(AnnouncedLength(size, AsWritten))) == size - 0x1_0000_0000 < 0
  {
    var n := size - 0x1_0000_0000;
    assert Int32(size) == n;
    AtolFormatInt(n);
  }

  /** An empty file: as written the case falls through into `default`
      before the `iovec`s are set, so the small page is queued but the
      `iovec`s are left as they were and `process_write` fails (the
      connection is closed); corrected, the page is queued and sent. */
  lemma EmptyFileResponse(c: Conn)
    requires WriteValid(c) && c.writeIdx < 200 && c.fileStat.size == 0
    ensures var w := ProcessWrite(c, FileRequest, AsWritten);
            && !w.0 && Queued(w.1) == Queued(c) + Page(200, OK_200_TITLE, EMPTY_PAGE, c.linger)
            && w.1.iv == c.iv && w.1.ivCount == c.ivCount
    ensures var r := ProcessWrite(c, FileRequest, Corrected);
            && r.0 && Queued(r.1) == Queued(c) + Page(200, OK_200_TITLE, EMPTY_PAGE, c.linger)
            && r.1.ivCount == 1 && r.1.iv[0] == IoVec(WriteBuffer, r.1.writeIdx)
  {
    var r := Respond(c, 200, OK_200_TITLE, EMPTY_PAGE);
    assert ProcessWrite(c, FileRequest, Corrected) == r;
    assert ProcessWrite(c, FileRequest, AsWritten) == (false, r.1.(iv := c.iv, ivCount := c.ivCount));
    PageFits(200, OK_200_TITLE, EMPTY_PAGE, c.linger);
    RespondQueues(c, 200, OK_200_TITLE, EMPTY_PAGE);
  }

  // ---------------------------------------------------------------------------
  // `process`

  /** What the connection waits for after `process`: more input (it is
      registered for reading), the response to be written, or nothing, the
      connection being closed. */
  datatype Outcome = AwaitInput | Reply | Close

  /** `process`: a request still incomplete waits for more input; any other
      outcome of the read side gets its response, and a response that could
      not be built closes the connection. */
  function Process(c: Conn, fs: Files, variant: Variant): (r: (Outcome, Conn))
    requires Valid(c)
    ensures r.1.readIdx == c.readIdx
    ensures r.0 == AwaitInput ==> r.1.writeBuf == c.writeBuf && r.1.writeIdx == c.writeIdx
    ensures r.0 == Reply ==> |r.1.iv| == 2 && r.1.iv[0] == IoVec(WriteBuffer, r.1.writeIdx)
  {
    var s := ReadLoop(c, LineOk, variant, fs);
    if s.code == NoRequest then (AwaitInput, s.conn)
    else
      var w := ProcessWrite(s.conn, s.code, variant);
      (if w.0 then Reply else Close, w.1)
  }

  /** Corrected, `process` never closes a connection whose write buffer
      starts empty, as long as file sizes fit in an `off_t`: every outcome
      of the read side other than NO_REQUEST is answered, with its error
      page, the small page of an empty file, or status line and headers
      followed by the file. */
  lemma ProcessAnswers(c: Conn, fs: Files)
    requires Valid(c) && c.writeIdx == 0
    requires forall path :: path in fs ==> fs[path].size <= MAX_OFF_T
    ensures var s := ReadLoop(c, LineOk, Corrected, fs);
            var r := Process(c, fs, Corrected);
            && (r.0 == AwaitInput <==> s.code == NoRequest)
            && (r.0 != Close)
            && (r.0 == Reply && IsError(s.code) ==>
                  Queued(r.1) == Page(ErrorStatus(s.code), ErrorTitle(s.code), ErrorForm(s.code), s.conn.linger)
                  && r.1.ivCount == 1)
            && (s.code == FileRequest && fs[s.conn.realFile].size != 0 ==>
                  r.1.ivCount == 2 && r.1.iv[1] == IoVec(FileMapping, fs[s.conn.realFile].size))
  {
    var s := ReadLoop(c, LineOk, Corrected, fs);
    if s.code != NoRequest {
      assert WriteValid(s.conn) && s.conn.writeIdx == 0;
      if IsError(s.code) {
        ErrorResponse(s.conn, s.code, Corrected);
      } else {
        assert s.code == FileRequest;
        assert s.conn.fileStat.size <= MAX_OFF_T;
        if s.conn.fileStat.size == 0 {
          EmptyFileResponse(s.conn);
        } else {
          FileResponse(s.conn, Corrected);
        }
      }
    }
  }

  /** As written, a request for an empty file closes the connection: the
      read side resolves it to FILE_REQUEST and `process_write` fails. */
  lemma EmptyFileCloses(c: Conn, fs: Files)
    requires Valid(c) && c.writeIdx == 0
    requires var s := ReadLoop(c, LineOk, AsWritten, fs);
             s.code == FileRequest && s.conn.fileStat.size == 0
    ensures Process(c, fs, AsWritten).0 == Close
  {
    var s := ReadLoop(c, LineOk, AsWritten, fs);
    EmptyFileResponse(s.conn);
  }
}

=== FILE: scanner.dfy ===
/** The line scanner (`parse_line`): looks for the end of the current line in
    `readBuf[checkedIdx .. readIdx)`, overwrites a found `\r\n` with two NULs
    so the line becomes a C string in place, and reports the line complete,
    malformed, or still open. */
module Scanner {
  import opened CLib
  import opened Connection

  /** Position of the first `\r` or `\n` in `b[from..to)`, or `to` if none. */
  function FirstTerminator(b: seq<char>, from: nat, to: nat): (p: nat)
    requires from <= to <= |b|
    ensures from <= p <= to
    ensures NoTerminator(b, from, p)
    ensures p < to ==> IsTerminator(b[p])
    decreases (to as int) - (from as int)
  {
    if from == to || IsTerminator(b[from]) then from else FirstTerminator(b, from + 1, to)
  }

  /** Result of one scan: outcome, new `checkedIdx`, buffer after the NUL writes. */
  datatype Scan = Scan(status: LineStatus, checked: nat, buf: seq<char>)

  /** What `parse_line` does, from the first terminator at or after `checked`:
      - none before `readIdx`: open, everything scanned;
      - `\r` as the last byte received: open, stopped on the `\r`;
      - `\r\n`: complete, both bytes NUL, scanned past the `\n`;
      - `\r` followed by anything else: malformed, stopped on the `\r`;
      - `\n` with a `\r` just before it (and at least two bytes before it):
        complete, both bytes NUL, scanned past the `\n`;
      - any other `\n`: malformed, stopped on the `\n`. */
  function ScanLine(b: seq<char>, checked: nat, readIdx: nat): (r: Scan)
    requires checked <= readIdx <= |b|
    ensures checked <= r.checked <= readIdx && |r.buf| == |b|
    ensures r.status != LineOk ==> r.buf == b && NoTerminator(b, checked, r.checked)
    ensures r.status == LineOk ==> r.checked >= 2 && r.checked > checked
                                   && r.buf[r.checked - 1] == NUL && r.buf[r.checked - 2] == NUL
    ensures forall k :: 0 <= k < |b| && k != r.checked - 1 && k != r.checked - 2
                        ==> r.buf[k] == b[k]
    ensures r.status == LineOpen && r.checked < readIdx ==> r.checked + 1 == readIdx && b[r.checked] == CR
  {
    ScanAt(b, FirstTerminator(b, checked, readIdx), readIdx)
  }

  /** The scan's verdict once the first terminator `p` (or `readIdx`) is known. */
  function ScanAt(b: seq<char>, p: nat, readIdx: nat): Scan
    requires p <= readIdx <= |b|
  {
    if p == readIdx then Scan(LineOpen, readIdx, b)
    else if b[p] == CR then
      if p + 1 == readIdx then Scan(LineOpen, p, b)
      else if b[p + 1] == LF then Scan(LineOk, p + 2, b[p := NUL][p + 1 := NUL])
      else Scan(LineBad, p, b)
    else if p > 1 && b[p - 1] == CR then Scan(LineOk, p + 1, b[p - 1 := NUL][p := NUL])
    else Scan(LineBad, p, b)
  }

  /** The first terminator is the one every byte before it is not. */
  lemma FirstTerminatorIs(b: seq<char>, from: nat, to: nat, p: nat)
    requires from <= p < to <= |b|
    requires NoTerminator(b, from, p) && IsTerminator(b[p])
    ensures FirstTerminator(b, from, to) == p
  {
    var q := FirstTerminator(b, from, to);
    if q != p {
      assert false;
    }
  }

  /** Scanner bounds: with no `\r` or `\n` left to read, the line is open
      and everything received has been scanned; and conversely. */
  lemma ScanOpenWhenNoTerminator(b: seq<char>, checked: nat, readIdx: nat)
    requires checked <= readIdx <= |b|
    ensures NoTerminator(b, checked, readIdx)
            <==> ScanLine(b, checked, readIdx) == Scan(LineOpen, readIdx, b)
  {
  }

  /** A `\r\n` ends the line: both bytes become NUL and scanning resumes after them.
      A `\r` that is the last byte received leaves the line open, stopped on it. */
  lemma ScanCarriageReturn(b: seq<char>, checked: nat, readIdx: nat, p: nat)
    requires checked <= p < readIdx <= |b|
    requires NoTerminator(b, checked, p) && b[p] == CR
    ensures p + 1 < readIdx && b[p + 1] == LF
            ==> ScanLine(b, checked, readIdx) == Scan(LineOk, p + 2, b[p := NUL][p + 1 := NUL])
    ensures p + 1 == readIdx ==> ScanLine(b, checked, readIdx) == Scan(LineOpen, p, b)
  {
    FirstTerminatorIs(b, checked, readIdx, p);
  }

  /** Malformed framing: `\r` followed by anything but `\n`, and `\n` not
      preceded by `\r` at an offset above 1, stop the scan on that byte. */
  lemma ScanMalformed(b: seq<char>, checked: nat, readIdx: nat, p: nat)
    requires checked <= p < readIdx <= |b|
    requires NoTerminator(b, checked, p)
    ensures b[p] == CR && p + 1 < readIdx && b[p + 1] != LF
            ==> ScanLine(b, checked, readIdx) == Scan(LineBad, p, b)
    ensures b[p] == LF && !(p > 1 && b[p - 1] == CR)
            ==> ScanLine(b, checked, readIdx) == Scan(LineBad, p, b)
    ensures b[p] == LF && p > 1 && b[p - 1] == CR
            ==> ScanLine(b, checked, readIdx) == Scan(LineOk, p + 1, b[p - 1 := NUL][p := NUL])
  {
    if IsTerminator(b[p]) {
      FirstTerminatorIs(b, checked, readIdx, p);
    }
  }

  /** Bytes that arrive later do not change a verdict already reached: a
      complete or malformed line stays so, with the same NUL writes. */
  lemma ScanDecidedExtends(b: seq<char>, y: seq<char>, checked: nat, readIdx: nat)
    requires checked <= readIdx && readIdx + |y| <= |b|
    requires ScanLine(b, checked, readIdx).status != LineOpen
    ensures var s := ScanLine(b, checked, readIdx);
            ScanLine(Fill(b, readIdx, y), checked, readIdx + |y|)
              == Scan(s.status, s.checked, Fill(s.buf, readIdx, y))
  {
    var p := FirstTerminator(b, checked, readIdx);
    var b' := Fill(b, readIdx, y);
    assert p < readIdx;
    assert NoTerminator(b', checked, p);
    FirstTerminatorIs(b', checked, readIdx + |y|, p);
    assert b'[p] == b[p];
    if b[p] == CR {
      assert b'[p + 1] == b[p + 1];
      if b[p + 1] == LF {
        FillWriteBelow(b, readIdx, y, p, NUL);
        FillWriteBelow(b[p := NUL], readIdx, y, p + 1, NUL);
      }
    } else if p > 1 {
      assert b'[p - 1] == b[p - 1];
      if b[p - 1] == CR {
        FillWriteBelow(b, readIdx, y, p - 1, NUL);
        FillWriteBelow(b[p - 1 := NUL], readIdx, y, p, NUL);
      }
    }
  }

  /** An open scan can be resumed, once more bytes have arrived, from where it
      stopped, with the same result as scanning again from where it began:
      an open scan has passed over no terminator (`ScanLine`), and the new
      bytes land above it. */
  lemma ScanOpenResumes(b: seq<char>, y: seq<char>, checked: nat, mid: nat, readIdx: nat)
    requires checked <= mid <= readIdx && readIdx + |y| <= |b|
    requires NoTerminator(b, checked, mid)
    ensures ScanLine(Fill(b, readIdx, y), mid, readIdx + |y|)
            == ScanLine(Fill(b, readIdx, y), checked, readIdx + |y|)
  {
    var b' := Fill(b, readIdx, y);
    FillKeepsNoTerminator(b, readIdx, y, checked, mid);
    ScanSkip(b', checked, mid, readIdx + |y|);
  }

  /** Storing bytes above a stretch leaves the stretch as it was. */
  lemma FillKeepsNoTerminator(b: seq<char>, at: nat, y: seq<char>, from: nat, to: nat)
    requires at + |y| <= |b| && from <= to <= at
    requires NoTerminator(b, from, to)
    ensures NoTerminator(Fill(b, at, y), from, to)
  {
  }

  /** Starting the scan later, past bytes that are not terminators, changes nothing. */
  lemma ScanSkip(b: seq<char>, from: nat, mid: nat, readIdx: nat)
    requires from <= mid <= readIdx <= |b|
    requires NoTerminator(b, from, mid)
    ensures ScanLine(b, mid, readIdx) == ScanLine(b, from, readIdx)
  {
    FirstTerminatorFrom(b, from, mid, readIdx);
    assert ScanLine(b, mid, readIdx) == ScanAt(b, FirstTerminator(b, mid, readIdx), readIdx);
  }

  /** Skipping a stretch without terminators does not move the first terminator. */
  lemma FirstTerminatorFrom(b: seq<char>, from: nat, mid: nat, to: nat)
    requires from <= mid <= to <= |b|
    requires NoTerminator(b, from, mid)
    ensures FirstTerminator(b, from, to) == FirstTerminator(b, mid, to)
  {
    var q := FirstTerminator(b, mid, to);
    if q < to {
      FirstTerminatorIs(b, from, to, q);
    }
  }

  /** `parse_line` as the loop it is, over the buffer it owns; it computes
      exactly the scan described by `ScanLine`. */
  method ParseLine(b: seq<char>, checked: nat, readIdx: nat)
      returns (status: LineStatus, checked': nat, b': seq<char>)
    requires checked <= readIdx <= |b|
    ensures Scan(status, checked', b') == ScanLine(b, checked, readIdx)
  {
    b' := b;
    checked' := checked;
    while checked' < readIdx
      invariant checked <= checked' <= readIdx
      invariant NoTerminator(b, checked, checked')
      invariant b' == b
    {
      var temp := b'[checked'];
      if temp == CR {
        FirstTerminatorIs(b, checked, readIdx, checked');
        if checked' + 1 == readIdx {
          return LineOpen, checked', b';
        } else if b'[checked' + 1] == LF {
          b' := b'[checked' := NUL];
          checked' := checked' + 1;
          b' := b'[checked' := NUL];
          checked' := checked' + 1;
          return LineOk, checked', b';
        }
        return LineBad, checked', b';
      } else if temp == LF {
        FirstTerminatorIs(b, checked, readIdx, checked');
        if checked' > 1 && b'[checked' - 1] == CR {
          b' := b'[checked' - 1 := NUL];
          b' := b'[checked' := NUL];
          checked' := checked' + 1;
          return LineOk, checked', b';
        }
        return LineBad, checked', b';
      }
      checked' := checked' + 1;
    }
    FirstTerminatorFrom(b, checked, readIdx, readIdx);
    return LineOpen, checked', b';
  }
}
